=== FILE: README.md ===
# CamperAPI core in Dafny

A model of the core of CamperAPI, a bootcamp-directory REST API, with proofs about it. The model covers:

- **The list middleware** `advancedResults`. It removes the reserved query keys and turns the `gt`/`gte`/`lt`/`lte`/`in` words of the serialised filter into `$` operators. It reads `select` and `sort`, coerces `page` and `limit` with `parseInt(...) || default`, cuts one page out of the store's result and builds the `{success, count, pagination, data}` envelope.
- **The route guard** `protect` and `authorize(...roles)`. `protect` takes the token from a bearer header or a cookie, and `authorize` checks the user's role. The publishing routes of `routes/bootcamps.js` chain the two.
- **The `register` and `login` handlers.**
- **The three schemas: User, Course and Review.**
  - User: validators, the password-hashing save hook, the signed token, password comparison, and the reset-token issuer.
  - Course: validators, defaults, and the average-cost aggregate that the save and remove hooks recompute.
  - Review: validators, defaults, and the average-rating aggregate that the save and remove hooks recompute.
- **The `getReviews` handler.**

The model is made of pure functions over immutable values:

- The store is a sequence of records.
- A bootcamp's two aggregate fields are a map from id to `Stats`.
- Everything the code calls but does not define is a function parameter:
  - `JSON.stringify` of the filter;
  - `jwt.sign` and `jwt.verify`;
  - bcrypt's `hash` and `compare`;
  - SHA-256;
  - `crypto.randomBytes`;
  - the clock;
  - `find(...)` and `countDocuments()`.
- JavaScript built-ins that the results depend on are written out:
  - `split`/`join` with a one-character separator;
  - `trim`;
  - `startsWith`;
  - `parseInt(x, 10)`;
  - truthiness;
  - `Math.ceil`;
  - `Buffer.toString('hex')`;
  - the e-mail regular expression, as a recogniser proved equal to a plain description of the addresses it accepts;
  - the global `\b(gt|gte|lt|lte|in)\b` replace, as a scanner proved equal to a position-by-position reference definition.
- Averages are exact `real`s and integers are unbounded.

Modules, one per file: `Wrappers`, `Fields`, `Text`, `Numbers`, `OperatorRewrite`, `AdvancedResults`, `Email`, `Hex`, `UserModel`, `AccessGuard`, `AuthController`, `BootcampStats`, `CourseModel`, `ReviewModel`, `ReviewsController`.

Behaviour of the code that a reader might not expect, and that the model keeps:

- **The save hook.** It hashes the password on every save, not only when the password was modified, because the guard at models/User.js:44-46 does not return (see Findings).
- **The `admin` role.** The publishing routes authorize `admin` (routes/bootcamps.js:30-43), but the role enum at models/User.js:20-25 admits only `user` and `publisher`. So no created user is an admin (`UserModel.NoAdminIsCreated`, `AccessGuard.OnlyPublishersPublish`).
- **The operator rewrite.** It is a textual replace on the serialised filter, not a parser of operators. It also rewrites values (`OperatorRewrite.ValuesRewrittenToo`) and adds a second `$` to an operator that already has one (`OperatorRewrite.NotIdempotent`). It neither turns `100` into a number nor splits an `in` value into an array.
- **Negative page and limit.** `page=-2` and `limit=-5` survive `parseInt(...) || default` (middleware/advancedResults.js:40-42). The resulting negative window reaches the store, and the model reports `NegativeWindow` there (`AdvancedResults.Paginate`).
- **Unfiltered total.** The `next` hint is computed against `countDocuments()` of the whole collection, not against the filtered result (`AdvancedResults.NextIgnoresFilter`).

## Model

| member | source | states |
|---|---|---|
| AdvancedResults.StripReserved | middleware/advancedResults.js:5-11 | the filter holds exactly the query's keys other than select, sort, page and limit, each with its original value |
| AdvancedResults.FilterHasNoReservedKey | middleware/advancedResults.js:8-11 | none of the four reserved keys ever reaches the filter |
| AdvancedResults.FilterIgnoresReservedKeys | middleware/advancedResults.js:5-14 | two queries that differ only in reserved keys produce the same filter |
| AdvancedResults.SpaceSeparated | middleware/advancedResults.js:26-34 | a falsy value gives nothing; a nested (bracket) value is a TypeError; a string gets every comma replaced by a space |
| AdvancedResults.SelectFields | middleware/advancedResults.js:26-29 | no selection when select is absent or empty; a nested `select[x]=…` is a TypeError; a non-empty string gives the field list with commas turned into spaces |
| AdvancedResults.SortKeys | middleware/advancedResults.js:31-37 | `-createdAt` when sort is falsy; otherwise the keys with commas turned into spaces; fails exactly when sort is a nested value |
| AdvancedResults.Coerce | middleware/advancedResults.js:40-42 | the parsed integer when parseInt yields a non-zero number, the fallback when it yields NaN or 0 |
| AdvancedResults.Translate | middleware/advancedResults.js:5-42 | the descriptor's filter is the rewritten serialisation of the stripped query; selection and sort are as above; page and limit are never 0; it fails exactly when select or sort fails |
| AdvancedResults.Window | middleware/advancedResults.js:50 | skip/limit: at most `limit` rows, and row i of the window is row start+i of the result, with the exact length for each case |
| AdvancedResults.Paginate | middleware/advancedResults.js:44-83 | data is the skip/limit window and count is its length; next is present iff endIndex < total and points to page+1; prev is present iff startIndex > 0 and points to page-1; a negative window is an error |
| AdvancedResults.Run | middleware/advancedResults.js:1-85 | the whole middleware fails exactly when translation fails or the window is negative; otherwise the envelope holds, index by index, the page window of the rows the store returns for the descriptor, a `next` hint exactly when the page's end index is below `total` and a `prev` hint exactly when its start index is above 0, each naming the adjacent page and the limit |
| AdvancedResults.PositiveWindow | middleware/advancedResults.js:40-50 | with page and limit at least 1, the window starts at a non-negative index and spans `limit` rows, the page is served, and prev is present iff page >= 2 |
| AdvancedResults.NextIgnoresFilter | middleware/advancedResults.js:48-69 | a filter that matches nothing still advertises a next page when the whole collection exceeds one page |
| AdvancedResults.PaginatorExamples | middleware/advancedResults.js:64-76 | page 2 of 10 out of 30 has next page 3 and prev page 1; page 1 of 10 out of 5 has neither |
| AdvancedResults.DefaultsWhenUnparsable | middleware/advancedResults.js:40-42 | page and limit that parse to NaN or 0 become 1 and 25 |
| AdvancedResults.NumericPageAndLimit | middleware/advancedResults.js:40-42 | page and limit given as decimal numbers (non-zero, any sign) are read back as those numbers |
| OperatorRewrite.RewriteInsertsDollars | middleware/advancedResults.js:16-20 | the replace equals the reference definition: every character kept in order, with one `$` before each position where a whole word gt, gte, lt, lte or in begins |
| OperatorRewrite.NoOperatorUnchanged | middleware/advancedResults.js:16-20 | text without a whole-word operator passes through unchanged |
| OperatorRewrite.RewriteWord | middleware/advancedResults.js:17-20 | a lone word gains a `$` exactly when it is one of the five operators |
| OperatorRewrite.RewritePunctuation | middleware/advancedResults.js:17-20 | text without word characters passes through unchanged |
| OperatorRewrite.EnclosedWord | middleware/advancedResults.js:14-20 | a quoted word of the serialised filter gains a `$` exactly when it is an operator |
| OperatorRewrite.ValuesRewrittenToo | middleware/advancedResults.js:14-20 | a string value "in" in the serialised filter becomes "$in", just like a key |
| OperatorRewrite.NotIdempotent | middleware/advancedResults.js:17-20 | rewriting `gt` gives `$gt`, and rewriting `$gt` gives `$$gt` |
| Text.Split | middleware/auth.js:19 | split yields at least one piece, no piece holds the separator, and joining the pieces gives the input back |
| Text.SplitJoin | middleware/advancedResults.js:27 | splitting a join of separator-free pieces gives the pieces back |
| Text.SplitCount | middleware/auth.js:19 | split yields one more piece than there are separators |
| Text.SplitWithoutSeparator | middleware/auth.js:19 | a string without a space splits into itself alone, so piece [1] is undefined |
| Text.JoinSeparators | middleware/advancedResults.js:27 | `join(' ')` puts exactly one separator between consecutive pieces: the joined text holds one separator fewer than there are pieces |
| Text.StartsWithIffPrefix | middleware/auth.js:13 | `startsWith('Bearer')` holds exactly when the header is `Bearer` followed by some rest |
| Text.SplitJoinReplaces | middleware/advancedResults.js:27 | `split(a).join(b)` is exactly the replacement of every `a` by `b` |
| Text.Trim | models/Course.js:6 | the trimmed title is the slice of the input between leading and trailing white space, and it neither starts nor ends with white space |
| Numbers.ParseInt | middleware/advancedResults.js:40 | parseInt is NaN exactly when no digit follows the leading white space and optional sign |
| Numbers.ParseIntOfDecimal | middleware/advancedResults.js:40-42 | parseInt reads back any integer's decimal spelling, also with non-digit text after it |
| Numbers.OrDefault | middleware/advancedResults.js:40-42 | `x || fallback` keeps a non-zero number and replaces NaN and 0; a non-zero fallback never gives 0 |
| Numbers.Ceil | models/Course.js:66 | Math.ceil returns an integer at or above x and less than x + 1 |
| Numbers.CeilIsLeast | models/Course.js:66 | Math.ceil returns the least integer at or above x |
| Numbers.Mean | models/Review.js:51 | $avg times the group size is the group's sum |
| Numbers.MeanBounds | models/Review.js:51 | the mean of values lying between two bounds also lies between them |
| Email.PatternIffShape | models/User.js:15-18 | the regular expression accepts exactly the strings with one `@`, well-separated word runs on both sides, and a dot plus two or three word characters at the end |
| Email.AcceptedAddress | models/User.js:16 | an accepted address has exactly one `@`, both sides well separated, and a two- or three-character top level |
| Email.LongTopLevelRejected | models/User.js:16 | `a@b.info` is rejected: top levels of four or more characters do not match |
| Hex.ToHex | models/User.js:70 | the hex spelling is two lower-case hex digits per byte |
| Hex.HexRoundTrip | models/User.js:70 | decoding the hex spelling gives the bytes back |
| UserModel.Violations | models/User.js:6-32 | each validator fails exactly under its own condition, with at most one error per field: required name, email and password; the e-mail pattern on a non-empty address; the role enum; the minimum length of 6 on a non-empty password |
| UserModel.PreSaveAsWritten | models/User.js:42-52 | the hook as written always rehashes the stored password and changes nothing else |
| UserModel.PreSave | models/User.js:41-52 | the corrected hook hashes a modified password, leaves an unmodified user untouched, and changes no other field |
| UserModel.HooksAgreeOnCreate | models/User.js:42-52 | on creation, when the password is new, the two hooks agree |
| UserModel.ResaveLocksUserOut | models/User.js:42-52 | a user that matched its password no longer matches after a save that does not touch the password; with the corrected hook it still matches |
| UserModel.FindByEmail | controllers/auth.js:39 | findOne finds a stored user with that exact address, and finds none only when no stored user has it |
| UserModel.FindById | middleware/auth.js:35 | findById finds a stored user with that id, and finds none only when no stored user has it |
| UserModel.IssuedAt | models/User.js:56-58 | the `iat` second `jwt.sign` stamps is the whole second containing the signing instant |
| UserModel.TokenDependsOnlyOnId | models/User.js:55-59 | `getSignedJwtToken` (`SignedToken`) signs the user's id and the issue second and nothing else: users with the same id get the same token when it is issued within the same second |
| UserModel.MatchUsesStoredHash | models/User.js:62-64 | a helper fact about `matchPassword` (`MatchPassword`): it reads the stored hash and no other field, so users holding the same hash answer alike (the password's partner property is `UserModel.CreatedUserMatches`) |
| UserModel.Create | models/User.js:6-52 | creation fails exactly with the set of violated validators; a created user has the given id, name and address, an allowed role (`user` by default), and the hash of a password of at least 6 characters, has no reset token, and has `createAt` equal to the creation time (`default: Date.now`) |
| UserModel.NoAdminIsCreated | models/User.js:20-25 | no created user has the role admin |
| UserModel.CreatedUserMatches | models/User.js:42-64 | a created user matches the password it was created with |
| UserModel.Read | models/User.js:26-32 | a default read omits the password; a `+password` read includes it; every other stored field is kept |
| UserModel.ReadLosesOnlyPassword | models/User.js:26-32 | a `+password` read gives the stored record back; two users read the same by default exactly when they differ at most in their password |
| UserModel.ResetToken | models/User.js:67-83 | the plaintext is 40 lower-case hex digits; the record stores its SHA-256 and an expiry 600000 ms from now, and nothing else changes |
| UserModel.ResetTokenEncodesEntropy | models/User.js:70 | the plaintext reset token decodes back to the 20 random bytes |
| AccessGuard.ExtractToken | middleware/auth.js:8-24 | with a non-empty header starting with Bearer, the token is piece [1] of the header split on spaces, or none; otherwise it is the cookie when truthy |
| AccessGuard.Protect | middleware/auth.js:7-40 | 401 when there is no token or it does not verify; otherwise the request proceeds with the user found by the token's id, as a default read without the password; no other outcome |
| AccessGuard.DefaultRead | middleware/auth.js:35 | `findById` attaches the found user as a default read, or nothing when no user has that id |
| AccessGuard.CookieIgnoredUnderBearer | middleware/auth.js:11-24 | with a bearer header the cookie never affects the token |
| AccessGuard.BareBearerRejected | middleware/auth.js:11-29 | a header that starts with Bearer and has no space gets 401, even with a valid cookie |
| AccessGuard.NoTokenNoVerify | middleware/auth.js:26-29 | without a token the outcome is 401 whatever the verifier would say |
| AccessGuard.BadTokenLikeMissing | middleware/auth.js:27-39 | a token that fails verification gets the same answer as a missing one |
| AccessGuard.Authorize | middleware/auth.js:43-55 | the request proceeds unchanged iff the user's role is listed; otherwise 403 naming the role; a TypeError without a user |
| AccessGuard.Guard | middleware/auth.js:7-55 | 401 iff protect rejects; 403 iff protect attaches a user whose role is not listed; when protect attaches a user with a listed role, the request proceeds with exactly that user; when `findById` found no user (a token for a deleted user), `req.user.role` throws a TypeError |
| AccessGuard.OnlyPublishersPublish | routes/bootcamps.js:30-43 | among created users, exactly the publishers pass `authorize('publisher', 'admin')`; everyone else gets 403 |
| AuthController.Login | controllers/auth.js:29-56 | 400 without a truthy email and password; 401 "Invalid credentials" for an unknown address, and also for a known address whose stored hash does not match the entered password; otherwise a token signed over the found user's id and the login's issue second |
| AuthController.MissingFieldsSkipLookup | controllers/auth.js:33-36 | a body without both fields gets the same answer whatever the store holds |
| AuthController.NoAccountEnumeration | controllers/auth.js:38-50 | an unknown address and a wrong password get the identical answer |
| AuthController.Register | controllers/auth.js:8-24 | succeeds iff the body's fields pass the user schema, with a token signed over the new id at the second `jwt.sign` runs; otherwise the violations are passed on |
| AuthController.RegisterThenLogin | controllers/auth.js:8-56 | a registered user logging in with the same body gets a token for the new id issued at the login's second, provided the address was free and compare accepts what hash produced; when both are issued in the same second, it is the registration token itself |
| AuthController.LoginThenProtect | controllers/auth.js:29-56 | when the signer's tokens verify back to their id, a login token sent as `Bearer <token>` passes `protect` (middleware/auth.js:11-36) with the logged-in user attached as a default read |
| AuthController.FindByIdDistinct | middleware/auth.js:35 | with distinct ids, `findById` of a stored user's id finds that user |
| BootcampStats.SetAverageCost | models/Course.js:65-67 | findByIdAndUpdate sets the bootcamp's average cost, leaves every other bootcamp unchanged, and does nothing for an unknown id |
| BootcampStats.SetAverageRating | models/Review.js:59-61 | findByIdAndUpdate sets the bootcamp's average rating, leaves every other bootcamp unchanged, and does nothing for an unknown id |
| CourseModel.Violations | models/Course.js:3-44 | each validator fails exactly under its own condition, with at most one error per field: the title is checked after trimming, and an empty skill is reported as missing, not as unlisted |
| CourseModel.AcceptedInput | models/Course.js:3-44 | a course passes validation iff it has every required field and a non-empty trimmed title, and its skill is beginner, intermediate or advanced |
| CourseModel.Admit | models/Course.js:3-44 | fails exactly with the violated validators; an admitted course has the given id, a trimmed non-empty title, the input's description, weeks, tuition, skill, bootcamp and user, an allowed skill, scholarship false by default, and the given creation time |
| CourseModel.NewCourseAsWritten | models/Course.js:30-33 | without a createdAt, the course gets the time the schema was defined |
| CourseModel.NewCourse | models/Course.js:30-33 | corrected: without a createdAt, the course gets its own creation time; fails exactly when a validator fails |
| CourseModel.SharedCreationTime | models/Course.js:30-33 | two courses created at different times share one createdAt as written, and get distinct ones when corrected |
| CourseModel.CoursesOf | models/Course.js:48-52 | the $match keeps exactly the courses of that bootcamp, each as many times as it is stored |
| CourseModel.RoundedCost | models/Course.js:66 | `Math.ceil(mean / 10) * 10` is the least multiple of ten at or above the mean, and less than mean + 10 |
| CourseModel.AverageCost | models/Course.js:47-71 | with no course the update throws and nothing is written; otherwise the bootcamp's average cost becomes the rounded mean tuition of its courses, and every other bootcamp and field is unchanged |
| CourseModel.Upsert | models/Course.js:74-76 | after a save, the stored courses are, with multiplicity, those with a different id plus exactly one copy of the saved course |
| CourseModel.Save | models/Course.js:73-76 | the stored courses are, with multiplicity, the old ones with another id plus one copy of the saved course, and its bootcamp's average is recomputed over them |
| CourseModel.Without | models/Course.js:79-81 | every stored course with that id is removed and every other stored course is kept as many times as it was stored |
| CourseModel.Remove | models/Course.js:78-81 | every course with that id is gone, every other course is kept as many times as it was stored, and the bootcamp's average is recomputed over what is left |
| CourseModel.LastCourseLeavesStaleCost | models/Course.js:63-81 | removing a bootcamp's last course leaves its old average cost in place |
| CourseModel.SavedCostBounds | models/Course.js:47-76 | after a save, the bootcamp's cost is a multiple of ten within ten of the exact mean, counting the saved course |
| ReviewModel.Violations | models/Review.js:3-34 | each validator fails exactly under its own condition: title required and at most 100 characters after trimming, text required, rating required and between 1 and 10, bootcamp and user required |
| ReviewModel.AcceptedInput | models/Review.js:3-34 | a review passes validation iff its trimmed title has 1 to 100 characters, its text is non-empty, its rating lies in [1, 10], and it names a bootcamp and a user |
| ReviewModel.NewReview | models/Review.js:3-34 | fails exactly with the violated validators; a created review is valid, has the given id, the trimmed title and the input's text, rating, bootcamp and user, and createdAt defaults to the creation time |
| ReviewModel.ReviewsOf | models/Review.js:43-45 | the $match keeps exactly the reviews of that bootcamp, each as many times as it is stored |
| ReviewModel.AverageRatingOf | models/Review.js:40-61 | the exact mean rating of the bootcamp's reviews, or 0 when it has none |
| ReviewModel.AverageRating | models/Review.js:56-61 | the bootcamp's rating becomes the mean rating of its reviews, 0 when it has none; every other bootcamp and field is unchanged, and an unknown id changes nothing |
| ReviewModel.RatingInRange | models/Review.js:14-61 | when all reviews are valid, a bootcamp with reviews is rated between 1 and 10 |
| ReviewModel.Upsert | models/Review.js:68-70 | after a save, the stored reviews are, with multiplicity, those with a different id plus exactly one copy of the saved review |
| ReviewModel.Save | models/Review.js:67-70 | the stored reviews are, with multiplicity, the old ones with another id plus one copy of the saved review, and its bootcamp's average is recomputed over them |
| ReviewModel.Without | models/Review.js:73-75 | every stored review with that id is removed and every other stored review is kept as many times as it was stored |
| ReviewModel.Remove | models/Review.js:72-75 | every review with that id is gone, every other review is kept as many times as it was stored, and the bootcamp's average is recomputed over what is left |
| ReviewModel.LastReviewResetsRating | models/Review.js:58-61 | removing a bootcamp's last review resets its rating to 0 |
| ReviewsController.GetReviews | controllers/reviews.js:11-27 | always 200; with a bootcampId, exactly that bootcamp's reviews, each as many times as it is stored, with a matching count; otherwise the paginator's envelope unchanged |
| ReviewsController.RemovedReviewNotListed | controllers/reviews.js:14-21 | after the remove hook, the review is no longer listed for its bootcamp |

## Left out

- **JSON.** `JSON.stringify` of the filter is a parameter. `JSON.parse` of the rewritten text is not modelled: the descriptor keeps the text. Query values are strings or one level of bracket nesting. JSON `null`, numbers and repeated keys (arrays) are not modelled.
- **The store.** Its `find(...)` chain and `countDocuments()` are parameters. `populate` is not modelled, because it only joins related records into the page. The `$gt`-style operators are never evaluated.
- AdvancedResults.Paginate: a negative `skip` or `limit` is reported as the error `NegativeWindow`. MongoDB rejects a negative skip. For a negative limit it would instead return at most the limit's absolute value in one batch.
- **Asynchrony.** `async`/`await`, `asyncHandler`, the error middleware and `next()` are not modelled. Errors are values: `Reject`, `Crash`, `Invalid`, `NegativeWindow`, `NotAString`.
- **Cryptography.** bcrypt's salt generation, `jwt.sign`/`jwt.verify` with the secret and expiry, SHA-256 and `crypto.randomBytes` are opaque function parameters. `sign(id, iat)` receives the token's claims: the id and the issue second `iat`; the expiry `exp` follows from `iat` and the configured lifetime, so it is not a separate argument. Token expiry is folded into `verify` answering `None`.
- **Cookies.** `cookie-parser` is not modelled: the cookie token is an input field.
- **Other auth handlers.** `getMe`, `forgotPassword`, `resetPassword`, `updateDetails` and `updatePassword` do not appear in `controllers/auth.js` and are not part of this model. The same goes for matching a reset token and rolling it back.
- **Unique indexes.** The email index and the review index are not modelled. The review index is declared on the misspelt field `bootcampt`, so it would not restrict reviews per bootcamp anyway. Because duplicates are not rejected, `FindByEmail` takes the first match.
- **Request bodies.** The fields of a request body are taken to be strings or absent. Express's JSON parser can also deliver objects and numbers. An object email such as `{"$gt": ""}` reaches `findOne({email})` at controllers/auth.js:39 as an operator query, and a numeric password makes bcrypt throw. Neither case is modelled.
- **Strings.** Lengths are counted in characters, not UTF-16 code units. `\w` and white space are the ASCII and ECMAScript sets, without Unicode case folding.
- **Numbers.** Tuitions, ratings and averages are exact reals, not IEEE doubles. Times are integer milliseconds.
- **Review title length.** `maxLength` on the review title is taken as mongoose's `maxlength` validator.
- UserModel.PreSaveAsWritten: the first `next()` runs before the hash finishes. Mongoose therefore may continue the save before the hash is written. The model keeps only the end state, in which the password has been hashed.
- AdvancedResults.Run: `total` is an input, because `countDocuments()` counts the whole collection and not the filtered result.
- CourseModel.AverageCost: the `console.error` of the caught TypeError is not modelled. Only the fact that nothing is written is kept.
- **Malformed ids.** Ids are taken to be well-formed ObjectIds. A malformed `bootcampId` makes `Review.find` at controllers/reviews.js:15 reject with a CastError, so the request does not get 200; `GetReviews` does not model that path.
- **The Bootcamp model.** It is not part of this model. Only its `averageCost` and `averageRating` fields appear, through `findByIdAndUpdate`.

## Findings

| source | as written | input that shows it | evidently intended | confidence | as-written member | corrected member |
|---|---|---|---|---|---|---|
| models/User.js:44-50 | `if (!this.isModified('password')) { next(); }` has no `return`, so the hash runs on every save | a second save of a document that still carries its hash, such as the one `User.create` returned: the hash is hashed again, and the user's own password no longer matches it | hash only a modified password (the comment on line 48 says so) | high; not executed | UserModel.ResaveLocksUserOut | UserModel.PreSave |
| models/Course.js:30-33 | `default: Date.now()` calls the clock once, when the schema is defined | two courses created at different times without a `createdAt` get the same timestamp | `default: Date.now`, as `createAt` in models/User.js:37 and `createdAt` in models/Review.js:22 have it | high; not executed | CourseModel.SharedCreationTime | CourseModel.NewCourse |

=== FILE: access_guard.dfy ===
/** The route guard: `protect` authenticates a request from a bearer header or a
    cookie, `authorize(...roles)` admits only the listed roles.
    `verify` stands for `jwt.verify` with the configured secret: it yields the id the
    token was signed over, or `None` for any failure (bad signature, malformed, expired). */
module AccessGuard {
  import opened Wrappers
  import opened Text
  import opened UserModel
  import opened Fields

  /** The parts of a request the guard reads. */
  datatype Request = Request(authorization: Option<string>, cookieToken: Option<string>)

  /** What the guard does with the request: hand it on (`next()`), with the user
      attached by `protect`; stop it with an error status; or fail with a TypeError. */
  datatype Outcome =
    | Proceed(user: Option<UserView>)
    | Reject(status: int, message: string)
    | Crash

  const NotAuthorized: string := "Not authorized to access this route"

  /** The header branch is taken when the header is non-empty and starts with `Bearer`. */
  predicate BearerHeader(req: Request) {
    Present(req.authorization) && StartsWith(req.authorization.value, "Bearer")
  }

  /** The token as `protect` finds it: the second space-separated piece of a bearer
      header (absent when there is none), otherwise a truthy cookie. */
  function ExtractToken(req: Request): (t: Option<string>)
    ensures BearerHeader(req) && |Split(req.authorization.value, ' ')| >= 2 ==>
              t == Some(Split(req.authorization.value, ' ')[1])
    ensures BearerHeader(req) && |Split(req.authorization.value, ' ')| < 2 ==> t.None?
    ensures !BearerHeader(req) ==> t == (if Present(req.cookieToken) then req.cookieToken else None)
  {
    if BearerHeader(req) then
      var pieces := Split(req.authorization.value, ' ');
      if |pieces| >= 2 then Some(pieces[1]) else None
    else if Present(req.cookieToken) then req.cookieToken
    else None
  }

  /** `protect`: 401 without a token or with one that does not verify; otherwise
      the user found by the token's id is attached (possibly none) and the request proceeds.
      `findById` is a default read, so the attached user carries no password. */
  function Protect(req: Request, verify: string -> Option<Id>, users: seq<User>): (r: Outcome)
    ensures !Present(ExtractToken(req)) ==> r == Reject(401, NotAuthorized)
    ensures Present(ExtractToken(req)) && verify(ExtractToken(req).value).None? ==> r == Reject(401, NotAuthorized)
    ensures Present(ExtractToken(req)) && verify(ExtractToken(req).value).Some? ==>
              r == Proceed(DefaultRead(FindById(users, verify(ExtractToken(req).value).value)))
    ensures r.Proceed? || r == Reject(401, NotAuthorized)
    ensures r.Proceed? && r.user.Some? ==> r.user.value.password.None? && r.user.value.id in IdsOf(users)
  {
    var token := ExtractToken(req);
    if !Present(token) then Reject(401, NotAuthorized)
    else match verify(token.value)
      case None => Reject(401, NotAuthorized)
      case Some(id) => Proceed(DefaultRead(FindById(users, id)))
  }

  /** A looked-up user as a default read returns it, or none. */
  function DefaultRead(found: Option<User>): (v: Option<UserView>)
    ensures v.None? <==> found.None?
    ensures v.Some? ==> v.value == Read(found.value, false)
  {
    match found
    case None => None
    case Some(u) => Some(Read(u, false))
  }

  function IdsOf(users: seq<User>): set<Id>
  {
    set u | u in users :: u.id
  }

  /** With a bearer header the cookie is never consulted. */
  lemma CookieIgnoredUnderBearer(req: Request, cookie: Option<string>)
    requires BearerHeader(req)
    ensures ExtractToken(req.(cookieToken := cookie)) == ExtractToken(req)
  {
  }

  /** A `Bearer` header without a space (a bare `Bearer`, say) yields no token even
      when a cookie holds one, so the request gets 401. */
  lemma BareBearerRejected(header: string, cookie: string, verify: string -> Option<Id>, users: seq<User>)
    requires StartsWith(header, "Bearer") && ' ' !in header
    ensures Protect(Request(Some(header), Some(cookie)), verify, users) == Reject(401, NotAuthorized)
  {
    SplitWithoutSeparator(header, ' ');
  }

  /** Without a token the verifier is never consulted: the outcome is the same
      whatever `verify` would say. */
  lemma NoTokenNoVerify(req: Request, v1: string -> Option<Id>, v2: string -> Option<Id>, users: seq<User>)
    requires !Present(ExtractToken(req))
    ensures Protect(req, v1, users) == Protect(req, v2, users) == Reject(401, NotAuthorized)
  {
  }

  /** A token that fails verification is answered exactly like a missing one. */
  lemma BadTokenLikeMissing(req: Request, missing: Request, verify: string -> Option<Id>, users: seq<User>)
    requires Present(ExtractToken(req)) && verify(ExtractToken(req).value).None?
    requires !Present(ExtractToken(missing))
    ensures Protect(req, verify, users) == Protect(missing, verify, users)
  {
  }

  /** `authorize(...roles)`: the request proceeds, untouched, exactly when the attached
      user's role is listed; otherwise 403 naming the role. Reading the role of a
      missing user is a TypeError. */
  function Authorize(roles: seq<string>, user: Option<UserView>): (r: Outcome)
    ensures user.None? <==> r == Crash
    ensures user.Some? ==> (r.Proceed? <==> user.value.role in roles)
    ensures r.Proceed? ==> r.user == user
    ensures r.Reject? ==> r.status == 403 && r.message == "Role of " + user.value.role + " is not authorized to access this route"
  {
    match user
    case None => Crash
    case Some(u) =>
      if u.role in roles then Proceed(user)
      else Reject(403, "Role of " + u.role + " is not authorized to access this route")
  }

  /** `protect` followed by `authorize(...roles)`, as the protected routes chain them. */
  function Guard(req: Request, roles: seq<string>, verify: string -> Option<Id>, users: seq<User>): (r: Outcome)
    ensures r.Reject? && r.status == 401 <==> Protect(req, verify, users).Reject?
    ensures r.Reject? && r.status == 403 <==>
      && Protect(req, verify, users).Proceed?
      && Protect(req, verify, users).user.Some?
      && Protect(req, verify, users).user.value.role !in roles
    ensures r.Proceed? ==> r == Protect(req, verify, users) && r.user.Some? && r.user.value.role in roles
    ensures (&& Protect(req, verify, users).Proceed?
             && Protect(req, verify, users).user.Some?
             && Protect(req, verify, users).user.value.role in roles) ==> r == Protect(req, verify, users)
    ensures Protect(req, verify, users).Proceed? && Protect(req, verify, users).user.None? ==> r == Crash
  {
    match Protect(req, verify, users)
    case Proceed(user) => Authorize(roles, user)
    case other => other
  }

  /** The roles the publishing routes admit, `authorize('publisher', 'admin')`. */
  const PublishingRoles: seq<string> := ["publisher", "admin"]

  /** Among users the schema lets through, only publishers pass the publishing routes:
      `admin` is listed there but no created user can hold it. */
  lemma OnlyPublishersPublish(input: UserInput, id: Id, now: int, hash: (string, string) -> string, salt: string)
    requires Create(input, id, now, hash, salt).Success?
    ensures var u := Read(Create(input, id, now, hash, salt).value, false);
      Authorize(PublishingRoles, Some(u)).Proceed? <==> u.role == "publisher"
    ensures var u := Read(Create(input, id, now, hash, salt).value, false);
      u.role != "publisher" ==> Authorize(PublishingRoles, Some(u)).Reject? && Authorize(PublishingRoles, Some(u)).status == 403
  {
  }
}

=== FILE: advanced_results.dfy ===
/** The list middleware `advancedResults`: it turns a request's query string into a
    store query (filter, field selection, sort, page window), fetches one page and
    wraps it in the `{success, count, pagination, data}` envelope.
    The store's `find(...).select(...).sort(...)` chain is a function parameter
    returning the filtered, selected, sorted records; `countDocuments()` is the
    separate, unfiltered `total`. */
module AdvancedResults {
  import opened Wrappers
  import opened Text
  import opened Numbers
  import opened OperatorRewrite

  /** One query-string value after bracket parsing: a plain string, or the object
      that bracket syntax produces (`price[gt]=100` gives `price: {gt: "100"}`). */
  datatype Param = Str(s: string) | Nested(fields: map<string, string>)

  type Query = map<string, Param>

  /** Why the middleware stops without producing an envelope. */
  datatype Error =
    | NotAString(key: string)   // `.split` called on a nested value: a TypeError
    | NegativeWindow            // a negative skip or limit reaches the store

  const ReservedKeys: set<string> := {"select", "sort", "page", "limit"}
  const DefaultSort: string := "-createdAt"
  const DefaultPage: int := 1
  const DefaultLimit: int := 25

  /** The store query the middleware builds. */
  datatype Descriptor = Descriptor(
    filter: string,          // the serialised filter after the operator rewrite
    select: Option<string>,  // space-separated field list, when one was asked for
    sort: string,            // space-separated sort keys
    page: int,
    limit: int)
  {
    function StartIndex(): int { (page - 1) * limit }
    function EndIndex(): int { page * limit }
  }

  datatype PageRef = PageRef(page: int, limit: int)
  datatype Pagination = Pagination(next: Option<PageRef>, prev: Option<PageRef>)
  datatype Envelope<T> = Envelope(success: bool, count: nat, pagination: Pagination, data: seq<T>)

  function Lookup(q: Query, key: string): Option<Param>
  {
    if key in q then Some(q[key]) else None
  }

  /** JavaScript truthiness of a query value: an absent value and the empty string are falsy. */
  predicate Truthy(p: Option<Param>)
  {
    p.Some? && (p.value.Nested? || p.value.s != [])
  }

  /** `String(value)`, which is what `parseInt` reads. */
  function ParamText(p: Option<Param>): string
  {
    match p
    case None => "undefined"
    case Some(Str(s)) => s
    case Some(Nested(_)) => "[object Object]"
  }

  /** The copy of the query with the four reserved keys deleted. */
  function StripReserved(q: Query): (f: Query)
    ensures forall k :: k in f <==> k in q && k !in ReservedKeys
    ensures forall k | k in f :: f[k] == q[k]
  {
    map k | k in q && k !in ReservedKeys :: q[k]
  }

  /** The filter never sees a reserved key, whatever the query holds. */
  lemma FilterHasNoReservedKey(q: Query)
    ensures "select" !in StripReserved(q) && "sort" !in StripReserved(q)
    ensures "page" !in StripReserved(q) && "limit" !in StripReserved(q)
  {
  }

  /** The filter depends only on the non-reserved keys: two queries that differ in
      `select`, `sort`, `page` or `limit` alone give the same filter. */
  lemma FilterIgnoresReservedKeys(q: Query, q': Query)
    requires forall k | k !in ReservedKeys :: (k in q <==> k in q')
    requires forall k | k !in ReservedKeys && k in q :: q[k] == q'[k]
    ensures StripReserved(q) == StripReserved(q')
  {
  }

  /** `value.split(',').join(' ')` behind `if (value)`: `None` when the value is falsy,
      a TypeError when it is not a string. */
  function SpaceSeparated(key: string, p: Option<Param>): (r: Result<Option<string>, Error>)
    ensures !Truthy(p) ==> r == Success(None)
    ensures Truthy(p) && p.value.Nested? ==> r == Failure(NotAString(key))
    ensures Truthy(p) && p.value.Str? ==> r == Success(Some(ReplaceChar(p.value.s, ',', ' ')))
  {
    if !Truthy(p) then Success(None)
    else match p.value
      case Nested(_) => Failure(NotAString(key))
      case Str(s) =>
        SplitJoinReplaces(s, ',', ' ');
        Success(Some(Join(Split(s, ','), ' ')))
  }

  /** Field selection: every comma of `select` becomes a space; no selection when it is falsy. */
  function SelectFields(q: Query): (r: Result<Option<string>, Error>)
    ensures Lookup(q, "select") == None ==> r == Success(None)
    ensures Lookup(q, "select") == Some(Str("")) ==> r == Success(None)
    ensures Lookup(q, "select").Some? && Lookup(q, "select").value.Nested? ==> r == Failure(NotAString("select"))
    ensures forall s | Lookup(q, "select") == Some(Str(s)) && s != [] ::
              r == Success(Some(ReplaceChar(s, ',', ' ')))
  {
    SpaceSeparated("select", Lookup(q, "select"))
  }

  /** Sort keys: every comma of `sort` becomes a space; `-createdAt` when it is falsy. */
  function SortKeys(q: Query): (r: Result<string, Error>)
    ensures !Truthy(Lookup(q, "sort")) ==> r == Success("-createdAt")
    ensures forall s | Lookup(q, "sort") == Some(Str(s)) && s != [] ::
              r == Success(ReplaceChar(s, ',', ' '))
    ensures r.Failure? <==> Lookup(q, "sort").Some? && Lookup(q, "sort").value.Nested?
  {
    var sortBy :- SpaceSeparated("sort", Lookup(q, "sort"));
    Success(sortBy.GetOr(DefaultSort))
  }

  /** `parseInt(value, 10) || fallback`. */
  function Coerce(p: Option<Param>, fallback: int): (r: int)
    ensures ParseInt(ParamText(p)).Some? && ParseInt(ParamText(p)).value != 0 ==> r == ParseInt(ParamText(p)).value
    ensures ParseInt(ParamText(p)).None? || ParseInt(ParamText(p)).value == 0 ==> r == fallback
  {
    OrDefault(ParseInt(ParamText(p)), fallback)
  }

  /** The query translator: filter, selection, sort and page window from the query. */
  function Translate(q: Query, serialize: Query -> string): (r: Result<Descriptor, Error>)
    ensures r.Success? ==> r.value.filter == PrefixOperators(serialize(StripReserved(q)))
    ensures r.Success? ==> r.value.page != 0 && r.value.limit != 0
    ensures r.Success? ==> r.value.page == Coerce(Lookup(q, "page"), 1)
    ensures r.Success? ==> r.value.limit == Coerce(Lookup(q, "limit"), 25)
    ensures r.Success? ==> Success(r.value.select) == SelectFields(q)
    ensures r.Success? ==> Success(r.value.sort) == SortKeys(q)
    ensures r.Failure? <==> SelectFields(q).Failure? || SortKeys(q).Failure?
  {
    var select :- SelectFields(q);
    var sort :- SortKeys(q);
    var page := Coerce(Lookup(q, "page"), DefaultPage);
    var limit := Coerce(Lookup(q, "limit"), DefaultLimit);
    Success(Descriptor(PrefixOperators(serialize(StripReserved(q))), select, sort, page, limit))
  }

  /** `skip(start).limit(limit)` on the store's result sequence. */
  function Window<T>(rows: seq<T>, start: nat, limit: nat): (w: seq<T>)
    ensures |w| <= limit
    ensures |w| == (if start >= |rows| then 0 else if start + limit <= |rows| then limit else |rows| - start)
    ensures forall i | 0 <= i < |w| :: w[i] == rows[start + i]
  {
    if start >= |rows| then [] else rows[start..if start + limit <= |rows| then start + limit else |rows|]
  }

  /** The paginator: one page of `rows` plus the next/prev hints, which are computed
      against `total`, the count of the whole collection. */
  function Paginate<T>(d: Descriptor, rows: seq<T>, total: nat): (r: Result<Envelope<T>, Error>)
    ensures r.Failure? <==> d.StartIndex() < 0 || d.limit < 0
    ensures r.Success? ==> r.value.success && r.value.count == |r.value.data|
    ensures r.Success? ==> |r.value.data| <= d.limit
    ensures r.Success? ==> r.value.data == Window(rows, d.StartIndex(), d.limit)
    ensures r.Success? ==> (r.value.pagination.next.Some? <==> d.EndIndex() < total)
    ensures r.Success? && r.value.pagination.next.Some? ==> r.value.pagination.next.value == PageRef(d.page + 1, d.limit)
    ensures r.Success? ==> (r.value.pagination.prev.Some? <==> d.StartIndex() > 0)
    ensures r.Success? && r.value.pagination.prev.Some? ==> r.value.pagination.prev.value == PageRef(d.page - 1, d.limit)
  {
    var start := d.StartIndex();
    var end := d.EndIndex();
    if start < 0 || d.limit < 0 then Failure(NegativeWindow)
    else
      var data := Window(rows, start, d.limit);
      var next := if end < total then Some(PageRef(d.page + 1, d.limit)) else None;
      var prev := if start > 0 then Some(PageRef(d.page - 1, d.limit)) else None;
      Success(Envelope(true, |data|, Pagination(next, prev), data))
  }

  /** The whole middleware: `find` stands for the store query built from the
      descriptor, `total` for `countDocuments()`. */
  function Run<T>(q: Query, serialize: Query -> string,
                  find: (string, Option<string>, string) -> seq<T>, total: nat): (r: Result<Envelope<T>, Error>)
    ensures r.Failure? <==> || Translate(q, serialize).Failure?
                            || Translate(q, serialize).value.StartIndex() < 0
                            || Translate(q, serialize).value.limit < 0
    ensures r.Success? ==> r.value.success && r.value.count == |r.value.data|
    ensures r.Success? ==> |r.value.data| <= Translate(q, serialize).value.limit
    ensures r.Success? ==>
      var d := Translate(q, serialize).value;
      var rows := find(d.filter, d.select, d.sort);
      && |r.value.data| == (if d.StartIndex() >= |rows| then 0
                            else if d.StartIndex() + d.limit <= |rows| then d.limit
                            else |rows| - d.StartIndex())
      && forall i | 0 <= i < |r.value.data| :: r.value.data[i] == rows[d.StartIndex() + i]
    ensures r.Success? ==>
      var d := Translate(q, serialize).value;
      && (r.value.pagination.next.Some? <==> d.EndIndex() < total)
      && (r.value.pagination.next.Some? ==> r.value.pagination.next.value == PageRef(d.page + 1, d.limit))
      && (r.value.pagination.prev.Some? <==> d.StartIndex() > 0)
      && (r.value.pagination.prev.Some? ==> r.value.pagination.prev.value == PageRef(d.page - 1, d.limit))
  {
    var t := Translate(q, serialize);
    if t.Failure? then Failure(t.error)
    else
      var d := t.value;
      Paginate(d, find(d.filter, d.select, d.sort), total)
  }

  /** With the defaults or any positive values, page and limit are both at least 1,
      the window starts at a non-negative index and the page is served. */
  lemma PositiveWindow<T>(d: Descriptor, rows: seq<T>, total: nat)
    requires d.page >= 1 && d.limit >= 1
    ensures d.StartIndex() >= 0
    ensures d.EndIndex() - d.StartIndex() == d.limit
    ensures Paginate(d, rows, total).Success?
    ensures Paginate(d, rows, total).value.pagination.prev.Some? <==> d.page >= 2
  {
    assert (d.page - 1) * d.limit >= 0;
    if d.page >= 2 {
      assert (d.page - 1) * d.limit >= d.limit;
    }
  }

  /** The hints use the unfiltered total: a filter that matches nothing still
      advertises a next page when the collection is larger than one page. */
  lemma NextIgnoresFilter<T>(d: Descriptor, total: nat)
    requires d.page == 1 && d.limit >= 1 && total > d.limit
    ensures Paginate<T>(d, [], total).Success?
    ensures Paginate<T>(d, [], total).value.data == []
    ensures Paginate<T>(d, [], total).value.pagination.next == Some(PageRef(2, d.limit))
  {
  }

  /** Two sample requests: page 2 of 10 out of 30 has both hints; page 1 of 10 out
      of 5 has neither. */
  lemma PaginatorExamples<T>(rows: seq<T>)
    ensures var r := Paginate(Descriptor("{}", None, DefaultSort, 2, 10), rows, 30);
      && r.Success?
      && r.value.pagination == Pagination(Some(PageRef(3, 10)), Some(PageRef(1, 10)))
    ensures var r := Paginate(Descriptor("{}", None, DefaultSort, 1, 10), rows, 5);
      && r.Success?
      && r.value.pagination == Pagination(None, None)
  {
  }

  /** Absent or empty `page` and `limit`, or ones that do not start with a number
      or parse to 0, fall back to page 1 and 25 per page. */
  lemma DefaultsWhenUnparsable(q: Query, serialize: Query -> string)
    requires Translate(q, serialize).Success?
    requires ParseInt(ParamText(Lookup(q, "page"))).None? || ParseInt(ParamText(Lookup(q, "page"))).value == 0
    requires ParseInt(ParamText(Lookup(q, "limit"))).None? || ParseInt(ParamText(Lookup(q, "limit"))).value == 0
    ensures Translate(q, serialize).value.page == 1 && Translate(q, serialize).value.limit == 25
  {
  }

  /** A query value spelled as a decimal number is read back as that number. */
  lemma NumericPageAndLimit(q: Query, serialize: Query -> string, page: int, limit: int)
    requires Translate(q, serialize).Success?
    requires Lookup(q, "page") == Some(Str(IntToDecimal(page))) && page != 0
    requires Lookup(q, "limit") == Some(Str(IntToDecimal(limit))) && limit != 0
    ensures Translate(q, serialize).value.page == page
    ensures Translate(q, serialize).value.limit == limit
  {
    ParseIntOfDecimal(page, []);
    ParseIntOfDecimal(limit, []);
    assert IntToDecimal(page) + [] == IntToDecimal(page);
    assert IntToDecimal(limit) + [] == IntToDecimal(limit);
  }
}

=== FILE: auth_controller.dfy ===
/** The `register` and `login` handlers: what each answers for a request body,
    over the stored users, bcrypt's compare, the token signer and the instant the
    token is issued; and how a login token opens the routes `protect` guards. */
module AuthController {
  import opened Wrappers
  import opened Text
  import opened UserModel
  import opened Fields
  import AccessGuard

  /** The fields of a request body the handlers destructure. */
  datatype Body = Body(name: Option<string>, email: Option<string>, password: Option<string>, role: Option<string>)

  /** The handler's answer: 200 with a token, an error status with a message, or
      the schema's validation failures passed on to the error middleware. */
  datatype Response =
    | Ok(token: string)
    | Error(status: int, message: string)
    | Invalid(violations: set<Violation>)

  const MissingCredentials: string := "Please provide an email and password"
  const InvalidCredentials: string := "Invalid credentials"

  /** `login`: 400 unless both fields are truthy; 401 for an unknown address or a
      wrong password, with one message for both; otherwise a token for that user,
      issued at `now`. */
  function Login(body: Body, users: seq<User>, now: int, compare: (string, string) -> bool,
                 sign: (Id, int) -> string): (r: Response)
    ensures !Present(body.email) || !Present(body.password) ==> r == Error(400, MissingCredentials)
    ensures Present(body.email) && Present(body.password) && FindByEmail(users, body.email.value).None? ==>
              r == Error(401, InvalidCredentials)
    ensures r.Ok? <==>
      && Present(body.email) && Present(body.password)
      && FindByEmail(users, body.email.value).Some?
      && MatchPassword(FindByEmail(users, body.email.value).value, body.password.value, compare)
    ensures r.Ok? ==> r.token == sign(FindByEmail(users, body.email.value).value.id, IssuedAt(now))
    ensures (&& Present(body.email) && Present(body.password)
             && FindByEmail(users, body.email.value).Some?
             && !MatchPassword(FindByEmail(users, body.email.value).value, body.password.value, compare)) ==>
              r == Error(401, InvalidCredentials)
    ensures r.Ok? || r == Error(400, MissingCredentials) || r == Error(401, InvalidCredentials)
  {
    if !Present(body.email) || !Present(body.password) then Error(400, MissingCredentials)
    else
      match FindByEmail(users, body.email.value)
      case None => Error(401, InvalidCredentials)
      case Some(user) =>
        // the lookup selects `+password`, so the stored hash is there to compare with
        if !MatchPassword(user, body.password.value, compare) then Error(401, InvalidCredentials)
        else Ok(SignedToken(user, now, sign))
  }

  /** A body without both fields is refused before any lookup: the answer is the same
      whatever the store holds. */
  lemma MissingFieldsSkipLookup(body: Body, users1: seq<User>, users2: seq<User>, now: int,
                                compare: (string, string) -> bool, sign: (Id, int) -> string)
    requires !Present(body.email) || !Present(body.password)
    ensures Login(body, users1, now, compare, sign) == Login(body, users2, now, compare, sign)
  {
  }

  /** An unknown address and a wrong password get the same answer, so the response
      does not tell which addresses are registered. */
  lemma NoAccountEnumeration(known: Body, unknown: Body, users: seq<User>, now: int,
                             compare: (string, string) -> bool, sign: (Id, int) -> string)
    requires Present(known.email) && Present(known.password) && Present(unknown.email) && Present(unknown.password)
    requires FindByEmail(users, unknown.email.value).None?
    requires FindByEmail(users, known.email.value).Some?
    requires !MatchPassword(FindByEmail(users, known.email.value).value, known.password.value, compare)
    ensures Login(known, users, now, compare, sign) == Login(unknown, users, now, compare, sign)
  {
  }

  /** `register`: creates the user from exactly the body's name, email, password and
      role, and answers with a token signed over the new user's id. `now` is the
      instant `User.create` stamps, `signedAt` the later one `jwt.sign` reads. */
  function Register(body: Body, id: Id, now: int, signedAt: int, hash: (string, string) -> string, salt: string,
                    sign: (Id, int) -> string): (r: Response)
    ensures r.Ok? || r.Invalid?
    ensures r.Ok? <==> Violations(UserInput(body.name, body.email, body.password, body.role)) == {}
    ensures r.Ok? ==> r.token == sign(id, IssuedAt(signedAt))
    ensures r.Invalid? ==> r.violations == Violations(UserInput(body.name, body.email, body.password, body.role))
  {
    match Create(UserInput(body.name, body.email, body.password, body.role), id, now, hash, salt)
    case Failure(vs) => Invalid(vs)
    case Success(user) => Ok(SignedToken(user, signedAt, sign))
  }

  /** A user who registers can then log in with the same address and password,
      and gets a token for the new id issued at the login's instant, provided no
      earlier user holds that address and compare accepts what hash produced.
      Within the same second, the login token is the registration token itself. */
  lemma RegisterThenLogin(body: Body, users: seq<User>, id: Id, now: int, signedAt: int, loginAt: int,
                          hash: (string, string) -> string, salt: string,
                          compare: (string, string) -> bool, sign: (Id, int) -> string)
    requires forall p, s :: compare(p, hash(p, s))
    requires Register(body, id, now, signedAt, hash, salt, sign).Ok?
    requires forall i | 0 <= i < |users| :: Some(users[i].email) != body.email
    ensures var created := Create(UserInput(body.name, body.email, body.password, body.role), id, now, hash, salt).value;
      Login(body, users + [created], loginAt, compare, sign) == Ok(sign(id, IssuedAt(loginAt)))
    ensures var created := Create(UserInput(body.name, body.email, body.password, body.role), id, now, hash, salt).value;
      IssuedAt(loginAt) == IssuedAt(signedAt) ==>
        Login(body, users + [created], loginAt, compare, sign) == Register(body, id, now, signedAt, hash, salt, sign)
  {
    var input := UserInput(body.name, body.email, body.password, body.role);
    var created := Create(input, id, now, hash, salt).value;
    FindAppended(users, created);
  }

  lemma {:induction false} FindAppended(users: seq<User>, u: User)
    requires forall i | 0 <= i < |users| :: users[i].email != u.email
    ensures FindByEmail(users + [u], u.email) == Some(u)
  {
    if users != [] {
      assert (users + [u])[1..] == users[1..] + [u];
      FindAppended(users[1..], u);
    } else {
      assert users + [u] == [u];
    }
  }

  /** Stored users carry distinct ids, as MongoDB's `_id` index guarantees. */
  predicate DistinctIds(users: seq<User>)
  {
    forall i, j | 0 <= i < |users| && 0 <= j < |users| && users[i].id == users[j].id :: i == j
  }

  /** The way back from `login` to `protect`: when the signer's tokens verify to the id
      they were signed over and carry no space (as JWTs do not), the token a login
      returns, sent as `Bearer <token>`, lets the request through with the logged-in
      user attached as a default read, whatever cookie comes along. */
  lemma LoginThenProtect(body: Body, users: seq<User>, loginAt: int, compare: (string, string) -> bool,
                         sign: (Id, int) -> string, verify: string -> Option<Id>, cookie: Option<string>)
    requires DistinctIds(users)
    requires forall id :: sign(id, IssuedAt(loginAt)) != [] && ' ' !in sign(id, IssuedAt(loginAt))
    requires forall id :: verify(sign(id, IssuedAt(loginAt))) == Some(id)
    requires Login(body, users, loginAt, compare, sign).Ok?
    ensures var req := AccessGuard.Request(Some("Bearer " + Login(body, users, loginAt, compare, sign).token), cookie);
      AccessGuard.Protect(req, verify, users) == AccessGuard.Proceed(Some(Read(FindByEmail(users, body.email.value).value, false)))
  {
    var u := FindByEmail(users, body.email.value).value;
    var t := sign(u.id, IssuedAt(loginAt));
    var header := "Bearer " + t;
    assert Join([t], ' ') == t;
    assert Join(["Bearer", t], ' ') == header;
    SplitJoin(["Bearer", t], ' ');
    assert header[..6] == "Bearer";
    var req := AccessGuard.Request(Some(header), cookie);
    assert AccessGuard.ExtractToken(req) == Some(t);
    FindByIdDistinct(users, u);
  }

  /** With distinct ids, looking up a stored user's id finds that user. */
  lemma FindByIdDistinct(users: seq<User>, u: User)
    requires DistinctIds(users)
    requires u in users
    ensures FindById(users, u.id) == Some(u)
  {
  }
}

=== FILE: bootcamp_stats.dfy ===
/** The two aggregate fields of a bootcamp that the course and review hooks write
    with `findByIdAndUpdate`. The rest of the bootcamp record is not part of this model. */
module BootcampStats {
  import opened Wrappers
  import opened Fields

  datatype Stats = Stats(averageCost: Option<int>, averageRating: Option<real>)

  type Bootcamps = map<Id, Stats>

  /** `findByIdAndUpdate(id, {averageCost})`: no effect when there is no such bootcamp. */
  function SetAverageCost(bs: Bootcamps, id: Id, cost: int): (r: Bootcamps)
    ensures r.Keys == bs.Keys
    ensures id in bs ==> r[id] == bs[id].(averageCost := Some(cost))
    ensures forall other | other in bs && other != id :: r[other] == bs[other]
  {
    if id in bs then bs[id := bs[id].(averageCost := Some(cost))] else bs
  }

  /** `findByIdAndUpdate(id, {averageRating})`: no effect when there is no such bootcamp. */
  function SetAverageRating(bs: Bootcamps, id: Id, rating: real): (r: Bootcamps)
    ensures r.Keys == bs.Keys
    ensures id in bs ==> r[id] == bs[id].(averageRating := Some(rating))
    ensures forall other | other in bs && other != id :: r[other] == bs[other]
  {
    if id in bs then bs[id := bs[id].(averageRating := Some(rating))] else bs
  }
}

=== FILE: course_model.dfy ===
/** The course schema: its validators and defaults, and the average-cost aggregate
    that the save and remove hooks recompute for the course's bootcamp. */
module CourseModel {
  import opened Wrappers
  import opened Text
  import opened Numbers
  import opened BootcampStats
  import opened Fields

  const Skills: set<string> := {"beginner", "intermediate", "advanced"}

  datatype Course = Course(
    id: Id,
    title: string,
    description: string,
    weeks: string,
    tuition: real,
    minimumSkill: string,
    scholarshipAvailable: bool,
    createdAt: int,
    bootcamp: Id,
    user: Id)

  /** The fields a client supplies; `None` is an absent field. */
  datatype CourseInput = CourseInput(
    title: Option<string>,
    description: Option<string>,
    weeks: Option<string>,
    tuition: Option<real>,
    minimumSkill: Option<string>,
    scholarshipAvailable: Option<bool>,
    createdAt: Option<int>,
    bootcamp: Option<Id>,
    user: Option<Id>)

  datatype Violation =
    | TitleRequired
    | DescriptionRequired
    | WeeksRequired
    | TuitionRequired
    | SkillRequired
    | SkillNotAllowed
    | BootcampRequired
    | UserRequired

  const AllViolations: set<Violation> :=
    {TitleRequired, DescriptionRequired, WeeksRequired, TuitionRequired, SkillRequired,
     SkillNotAllowed, BootcampRequired, UserRequired}

  /** Whether one validator rejects the input; the title is checked after its setter
      trims it. A field's `required` check runs first and mongoose keeps only the first
      error of each field, so an empty skill is reported as missing, not as unlisted. */
  predicate Fails(input: CourseInput, v: Violation) {
    match v
    case TitleRequired => input.title.None? || Trim(input.title.value) == []
    case DescriptionRequired => !Present(input.description)
    case WeeksRequired => !Present(input.weeks)
    case TuitionRequired => input.tuition.None?
    case SkillRequired => !Present(input.minimumSkill)
    case SkillNotAllowed => Present(input.minimumSkill) && input.minimumSkill.value !in Skills
    case BootcampRequired => input.bootcamp.None?
    case UserRequired => input.user.None?
  }

  /** Every failing validator. */
  function Violations(input: CourseInput): (vs: set<Violation>)
    ensures forall v :: v in vs <==> Fails(input, v)
  {
    set v | v in AllViolations && Fails(input, v)
  }

  /** An input passes validation exactly when every required field is there, the
      trimmed title is not empty and the skill is one of the three levels. */
  lemma AcceptedInput(input: CourseInput)
    ensures Violations(input) == {} <==>
      && input.title.Some? && Trim(input.title.value) != []
      && Present(input.description) && Present(input.weeks) && input.tuition.Some?
      && input.minimumSkill.Some? && input.minimumSkill.value in Skills
      && input.bootcamp.Some? && input.user.Some?
  {
    if Violations(input) == {} {
      assert !Fails(input, TitleRequired) && !Fails(input, DescriptionRequired) && !Fails(input, WeeksRequired);
      assert !Fails(input, TuitionRequired) && !Fails(input, SkillRequired) && !Fails(input, SkillNotAllowed);
      assert !Fails(input, BootcampRequired) && !Fails(input, UserRequired);
    }
  }

  /** A validated course stamped with `createdAt`, or every failing validator. */
  function Admit(input: CourseInput, id: Id, createdAt: int): (r: Result<Course, set<Violation>>)
    ensures r.Failure? <==> Violations(input) != {}
    ensures r.Failure? ==> r.error == Violations(input)
    ensures r.Success? ==> && r.value.id == id
                           && input.description == Some(r.value.description)
                           && input.weeks == Some(r.value.weeks)
                           && input.tuition == Some(r.value.tuition)
                           && input.minimumSkill == Some(r.value.minimumSkill)
                           && input.bootcamp == Some(r.value.bootcamp)
                           && input.user == Some(r.value.user)
    ensures r.Success? ==> && input.title.Some? && r.value.title == Trim(input.title.value)
                           && r.value.title != []
                           && r.value.minimumSkill in Skills
                           && r.value.scholarshipAvailable == input.scholarshipAvailable.GetOr(false)
                           && r.value.createdAt == createdAt
  {
    if Violations(input) != {} then Failure(Violations(input))
    else
      AcceptedInput(input);
      Success(Course(id, Trim(input.title.value), input.description.value, input.weeks.value,
                     input.tuition.value, input.minimumSkill.value, input.scholarshipAvailable.GetOr(false),
                     createdAt, input.bootcamp.value, input.user.value))
  }

  /** A new course as the schema builds it. The `createdAt` default is `Date.now()`,
      called once when the schema is defined, so the default is the fixed time
      `schemaDefinedAt` rather than the time of creation `now`. */
  function NewCourseAsWritten(input: CourseInput, id: Id, schemaDefinedAt: int, now: int): (r: Result<Course, set<Violation>>)
    ensures r.Success? && input.createdAt.None? ==> r.value.createdAt == schemaDefinedAt
  {
    Admit(input, id, input.createdAt.GetOr(schemaDefinedAt))
  }

  /** The same with the default evidently meant, `Date.now` evaluated per document. */
  function NewCourse(input: CourseInput, id: Id, now: int): (r: Result<Course, set<Violation>>)
    ensures r.Failure? <==> Violations(input) != {}
    ensures r.Success? ==> r.value.createdAt == input.createdAt.GetOr(now)
  {
    Admit(input, id, input.createdAt.GetOr(now))
  }

  /** Two courses created at different times without a `createdAt` get the same
      timestamp under the schema as written, and their own times once corrected. */
  lemma SharedCreationTime(input: CourseInput, id1: Id, id2: Id, schemaDefinedAt: int, t1: int, t2: int)
    requires Violations(input) == {} && input.createdAt.None? && t1 != t2
    ensures NewCourseAsWritten(input, id1, schemaDefinedAt, t1).value.createdAt
         == NewCourseAsWritten(input, id2, schemaDefinedAt, t2).value.createdAt
    ensures NewCourse(input, id1, t1).value.createdAt != NewCourse(input, id2, t2).value.createdAt
  {
  }

  /** The courses of one bootcamp, in store order (the aggregation's `$match`): each
      matching course as often as it is stored, no other course. */
  function CoursesOf(courses: seq<Course>, bootcamp: Id): (r: seq<Course>)
    ensures forall c :: multiset(r)[c] == if c.bootcamp == bootcamp then multiset(courses)[c] else 0
    ensures forall c :: c in r <==> c in courses && c.bootcamp == bootcamp
    ensures |r| <= |courses|
  {
    if courses == [] then []
    else
      assert courses == [courses[0]] + courses[1..];
      (if courses[0].bootcamp == bootcamp then [courses[0]] else []) + CoursesOf(courses[1..], bootcamp)
  }

  function Tuitions(cs: seq<Course>): (ts: seq<real>)
    ensures |ts| == |cs|
    ensures forall i | 0 <= i < |cs| :: ts[i] == cs[i].tuition
  {
    seq(|cs|, i requires 0 <= i < |cs| => cs[i].tuition)
  }

  /** `Math.ceil(mean / 10) * 10`: the least multiple of ten not below the mean. */
  function RoundedCost(mean: real): (r: int)
    ensures r % 10 == 0
    ensures mean <= r as real < mean + 10.0
    ensures forall m: int | m % 10 == 0 && mean <= m as real :: r <= m
  {
    var q := Ceil(mean / 10.0);
    forall m: int | m % 10 == 0 && mean <= m as real
      ensures q * 10 <= m
    {
      CeilIsLeast(mean / 10.0, m / 10);
    }
    q * 10
  }

  /** `getAverageCost(bootcampId)`: the rounded mean tuition of that bootcamp's
      courses is written to it. With no course the aggregation is empty, reading
      `obj[0].averageCost` throws, the error is logged and nothing is written. */
  function AverageCost(courses: seq<Course>, bootcamp: Id, bs: Bootcamps): (r: Bootcamps)
    ensures CoursesOf(courses, bootcamp) == [] ==> r == bs
    ensures r.Keys == bs.Keys
    ensures bootcamp in bs && CoursesOf(courses, bootcamp) != [] ==>
      r[bootcamp] == bs[bootcamp].(averageCost := Some(RoundedCost(Mean(Tuitions(CoursesOf(courses, bootcamp))))))
    ensures forall other | other in bs && other != bootcamp :: r[other] == bs[other]
  {
    var group := CoursesOf(courses, bootcamp);
    if group == [] then bs
    else SetAverageCost(bs, bootcamp, RoundedCost(Mean(Tuitions(group))))
  }

  /** The save hook: the saved course replaces the stored one with its id, or is
      added, and the average of its bootcamp is recomputed. */
  function Save(courses: seq<Course>, c: Course, bs: Bootcamps): (r: (seq<Course>, Bootcamps))
    ensures multiset(r.0) == multiset(Without(courses, c.id)) + multiset{c}
    ensures c in r.0
    ensures forall d :: d in r.0 ==> d == c || (d in courses && d.id != c.id)
    ensures forall d :: d in courses && d.id != c.id ==> d in r.0
    ensures r.1 == AverageCost(r.0, c.bootcamp, bs)
  {
    var stored := Upsert(courses, c);
    (stored, AverageCost(stored, c.bootcamp, bs))
  }

  function Upsert(courses: seq<Course>, c: Course): (r: seq<Course>)
    ensures multiset(r) == multiset(Without(courses, c.id)) + multiset{c}
    ensures c in r
    ensures forall d :: d in r ==> d == c || (d in courses && d.id != c.id)
    ensures forall d :: d in courses && d.id != c.id ==> d in r
  {
    var r :=
      if courses == [] then [c]
      else if courses[0].id == c.id then [c] + Without(courses[1..], c.id)
      else [courses[0]] + Upsert(courses[1..], c);
    UpsertMembers(r, Without(courses, c.id), courses, c);
    r
  }

  /** Membership after a save, read off its multiplicities: `kept` stands for the
      stored courses without the saved id. */
  lemma UpsertMembers(r: seq<Course>, kept: seq<Course>, courses: seq<Course>, c: Course)
    requires forall d :: d in kept <==> d in courses && d.id != c.id
    requires multiset(r) == multiset(kept) + multiset{c}
    ensures c in r
    ensures forall d :: d in r ==> d == c || (d in courses && d.id != c.id)
    ensures forall d :: d in courses && d.id != c.id ==> d in r
  {
    assert c in multiset(r);
    forall d | d in r
      ensures d == c || (d in courses && d.id != c.id)
    {
      assert d in multiset(r);
    }
    forall d | d in courses && d.id != c.id
      ensures d in r
    {
      assert d in multiset(kept);
      assert d in multiset(r);
    }
  }

  /** The stored courses minus the one with the given id. */
  function Without(courses: seq<Course>, id: Id): (r: seq<Course>)
    ensures forall d :: multiset(r)[d] == if d.id == id then 0 else multiset(courses)[d]
    ensures forall d :: d in r <==> d in courses && d.id != id
  {
    if courses == [] then []
    else
      assert courses == [courses[0]] + courses[1..];
      (if courses[0].id == id then [] else [courses[0]]) + Without(courses[1..], id)
  }

  /** The remove hook: the course is gone and its bootcamp's average recomputed
      without it. */
  function Remove(courses: seq<Course>, c: Course, bs: Bootcamps): (r: (seq<Course>, Bootcamps))
    ensures forall d :: multiset(r.0)[d] == if d.id == c.id then 0 else multiset(courses)[d]
    ensures forall d :: d in r.0 <==> d in courses && d.id != c.id
    ensures r.1 == AverageCost(r.0, c.bootcamp, bs)
  {
    var stored := Without(courses, c.id);
    (stored, AverageCost(stored, c.bootcamp, bs))
  }

  /** Removing the last course of a bootcamp leaves its old average cost in place. */
  lemma LastCourseLeavesStaleCost(courses: seq<Course>, c: Course, bs: Bootcamps)
    requires forall d | d in courses && d.bootcamp == c.bootcamp :: d.id == c.id
    ensures Remove(courses, c, bs).1 == bs
  {
    var stored := Remove(courses, c, bs).0;
    assert forall d | d in stored :: d.bootcamp != c.bootcamp;
    NoCoursesLeft(stored, c.bootcamp);
  }

  lemma NoCoursesLeft(stored: seq<Course>, bootcamp: Id)
    requires forall d | d in stored :: d.bootcamp != bootcamp
    ensures CoursesOf(stored, bootcamp) == []
  {
  }

  /** After a save, the bootcamp's average cost is a multiple of ten within ten of
      the exact mean, which counts the saved course's tuition. */
  lemma SavedCostBounds(courses: seq<Course>, c: Course, bs: Bootcamps)
    requires c.bootcamp in bs
    ensures var r := Save(courses, c, bs);
      var group := CoursesOf(r.0, c.bootcamp);
      && c in group
      && r.1[c.bootcamp].averageCost.Some?
      && r.1[c.bootcamp].averageCost.value % 10 == 0
      && Mean(Tuitions(group)) <= r.1[c.bootcamp].averageCost.value as real < Mean(Tuitions(group)) + 10.0
  {
  }
}

=== FILE: email.dfy ===
/** The e-mail validator of the user schema, the pattern
        ^\w+([\.-]?\w+)*@\w+([\.-]?\w+)*(\.\w{2,3})+$
    written as a recogniser that follows the pattern piece by piece, and the
    declarative description of the language it accepts, proved equivalent. */
module Email {
  import opened Text

  /** The two separators the pattern allows between runs of word characters. */
  predicate IsSep(c: char) {
    c == '.' || c == '-'
  }

  // ---- The recogniser, one predicate per piece of the pattern

  /** `\w+([\.-]?\w+)*`: a word character, then either the end, more of the same
      piece, or one separator followed by more of the same piece. */
  predicate Dotted(x: string)
    decreases |x|
  {
    && |x| > 0
    && IsWordChar(x[0])
    && (|x| == 1 || Dotted(x[1..]) || (IsSep(x[1]) && Dotted(x[2..])))
  }

  /** `(\.\w{2,3})+`: a dot and two or three word characters, repeated at least once. */
  predicate TopLevel(t: string)
    decreases |t|
  {
    && |t| >= 3 && t[0] == '.' && IsWordChar(t[1]) && IsWordChar(t[2])
    && (|| |t| == 3
        || TopLevel(t[3..])
        || (IsWordChar(t[3]) && (|t| == 4 || TopLevel(t[4..]))))
  }

  /** `\w+([\.-]?\w+)*(\.\w{2,3})+`: the domain splits into the two pieces. */
  predicate Domain(d: string)
  {
    exists j | 0 < j < |d| :: Dotted(d[..j]) && TopLevel(d[j..])
  }

  /** The anchored pattern: local part, `@`, domain, nothing before or after. */
  predicate MatchesPattern(s: string)
  {
    exists k | 0 < k < |s| :: s[k] == '@' && Dotted(s[..k]) && Domain(s[k + 1..])
  }

  // ---- The language, described without the pattern

  /** Non-empty, made of word characters and separators only, with a separator
      never first, never last and never next to another separator. */
  predicate WellSeparated(x: string)
  {
    && |x| > 0
    && !IsSep(x[0])
    && !IsSep(x[|x| - 1])
    && (forall i | 0 <= i < |x| :: IsWordChar(x[i]) || IsSep(x[i]))
    && (forall i | 0 <= i < |x| - 1 :: !IsSep(x[i]) || !IsSep(x[i + 1]))
  }

  /** Ends with a dot followed by exactly two or exactly three word characters. */
  predicate EndsWithTopLevel(x: string)
  {
    || (|x| >= 3 && x[|x| - 3] == '.' && IsWordChar(x[|x| - 2]) && IsWordChar(x[|x| - 1]))
    || (|x| >= 4 && x[|x| - 4] == '.' && IsWordChar(x[|x| - 3]) && IsWordChar(x[|x| - 2])
        && IsWordChar(x[|x| - 1]))
  }

  /** Exactly one `@`; both sides well separated; the domain ends in a short top level. */
  predicate EmailShape(s: string)
  {
    var parts := Split(s, '@');
    && |parts| == 2
    && WellSeparated(parts[0])
    && WellSeparated(parts[1])
    && EndsWithTopLevel(parts[1])
  }

  // ---- Equivalence

  /** The validator accepts exactly the strings of the described shape. */
  lemma PatternIffShape(s: string)
    ensures MatchesPattern(s) <==> EmailShape(s)
  {
    if MatchesPattern(s) {
      PatternHasShape(s);
    }
    if EmailShape(s) {
      ShapeMatchesPattern(s);
    }
  }

  lemma PatternHasShape(s: string)
    requires MatchesPattern(s)
    ensures EmailShape(s)
  {
    var k :| 0 < k < |s| && s[k] == '@' && Dotted(s[..k]) && Domain(s[k + 1..]);
    ShapeAround(s, k, s[..k], s[k + 1..]);
  }

  lemma ShapeAround(s: string, k: nat, local: string, domain: string)
    requires k < |s| && s[k] == '@' && local == s[..k] && domain == s[k + 1..]
    requires Dotted(local) && Domain(domain)
    ensures EmailShape(s)
  {
    DottedIffWellSeparated(local);
    DomainIffShape(domain);
    NoAt(local);
    NoAt(domain);
    SplitAround(s, k, '@');
  }

  lemma ShapeMatchesPattern(s: string)
    requires EmailShape(s)
    ensures MatchesPattern(s)
  {
    var parts := Split(s, '@');
    var k := |parts[0]|;
    TwoPieces(s, '@');
    assert s[..k] == parts[0] && s[k + 1..] == parts[1];
    DottedIffWellSeparated(parts[0]);
    DomainIffShape(parts[1]);
    assert s[k] == '@';
  }

  lemma NoAt(x: string)
    requires WellSeparated(x)
    ensures '@' !in x
  {
    assert forall i | 0 <= i < |x| :: x[i] != '@';
  }

  /** The first piece of the pattern describes exactly the well-separated strings. */
  lemma {:induction false} DottedIffWellSeparated(x: string)
    ensures Dotted(x) <==> WellSeparated(x)
    decreases |x|
  {
    if |x| >= 2 {
      DottedIffWellSeparated(x[1..]);
    }
    if |x| >= 3 {
      DottedIffWellSeparated(x[2..]);
    }
    if Dotted(x) {
      if |x| == 1 {
      } else if Dotted(x[1..]) {
        PrependWord(x);
      } else {
        assert IsSep(x[1]) && Dotted(x[2..]);
        assert |x[2..]| > 0;
        PrependWordSep(x);
      }
    }
    if WellSeparated(x) && |x| >= 2 {
      if IsSep(x[1]) {
        assert |x| >= 3 && !IsSep(x[2]);
        WellSeparatedDrop(x, 2);
      } else {
        WellSeparatedDrop(x, 1);
      }
    }
  }

  lemma PrependWord(x: string)
    requires |x| >= 2 && IsWordChar(x[0]) && WellSeparated(x[1..])
    ensures WellSeparated(x)
  {
    assert forall i | 1 <= i < |x| :: x[i] == x[1..][i - 1];
  }

  lemma PrependWordSep(x: string)
    requires |x| >= 3 && IsWordChar(x[0]) && IsSep(x[1]) && WellSeparated(x[2..])
    ensures WellSeparated(x)
  {
    assert forall i | 2 <= i < |x| :: x[i] == x[2..][i - 2];
  }

  /** Dropping a prefix that ends just before a non-separator keeps the rest well separated. */
  lemma WellSeparatedDrop(x: string, n: nat)
    requires WellSeparated(x) && 0 < n < |x| && !IsSep(x[n])
    ensures WellSeparated(x[n..])
  {
    assert forall i | 0 <= i < |x| - n :: x[n..][i] == x[n + i];
  }

  /** Cutting just before a separator keeps the front well separated. */
  lemma WellSeparatedTake(x: string, n: nat)
    requires WellSeparated(x) && 0 < n < |x| && IsSep(x[n])
    ensures WellSeparated(x[..n])
  {
    assert !IsSep(x[n - 1]);
  }

  /** Joining two well-separated strings with a dot gives a well-separated string. */
  lemma JoinWithDot(a: string, b: string)
    requires WellSeparated(a) && WellSeparated(b)
    ensures WellSeparated(a + ['.'] + b)
  {
    var x := a + ['.'] + b;
    assert forall i | 0 <= i < |a| :: x[i] == a[i];
    assert forall i | |a| < i < |x| :: x[i] == b[i - |a| - 1];
  }

  /** What the repeated top-level piece is made of. */
  lemma {:induction false} TopLevelShape(t: string)
    requires TopLevel(t)
    ensures t[0] == '.' && WellSeparated(t[1..]) && EndsWithTopLevel(t)
    decreases |t|
  {
    if |t| == 3 || (|t| == 4 && IsWordChar(t[3]) && !TopLevel(t[3..])) {
      ShortWellSeparated(t[1..]);
    } else if TopLevel(t[3..]) {
      TopLevelThen(t, 3);
    } else {
      TopLevelThen(t, 4);
    }
  }

  /** Two or three word characters are well separated. */
  lemma ShortWellSeparated(w: string)
    requires |w| == 2 || |w| == 3
    requires forall i | 0 <= i < |w| :: IsWordChar(w[i])
    ensures WellSeparated(w)
  {
    assert forall c | IsWordChar(c) :: !IsSep(c);
  }

  /** A first top-level piece of length `m`, followed by further pieces. */
  lemma {:induction false} TopLevelThen(t: string, m: nat)
    requires m == 3 || m == 4
    requires |t| > m && t[0] == '.' && forall i | 1 <= i < m :: IsWordChar(t[i])
    requires TopLevel(t[m..])
    ensures WellSeparated(t[1..]) && EndsWithTopLevel(t)
    decreases |t|, 0
  {
    var rest := t[m..];
    var k := m + 1;
    TopLevelShape(rest);
    assert rest[1..] == t[k..];
    ShortWellSeparated(t[1..m]);
    JoinWithDot(t[1..m], t[k..]);
    assert t[1..m] + ['.'] + t[k..] == t[1..];
    EndsWithSuffix(t, m);
  }

  /** The domain pieces describe exactly the well-separated strings with a short top level. */
  lemma DomainIffShape(d: string)
    ensures Domain(d) <==> WellSeparated(d) && EndsWithTopLevel(d)
  {
    if Domain(d) {
      var j :| 0 < j < |d| && Dotted(d[..j]) && TopLevel(d[j..]);
      DomainHasShape(d, j);
    }
    if WellSeparated(d) && EndsWithTopLevel(d) {
      ShapeIsDomain(d);
    }
  }

  lemma DomainHasShape(d: string, j: nat)
    requires 0 < j < |d| && Dotted(d[..j]) && TopLevel(d[j..])
    ensures WellSeparated(d) && EndsWithTopLevel(d)
  {
    var k := j + 1;
    DottedIffWellSeparated(d[..j]);
    TopLevelShape(d[j..]);
    assert d[j..][1..] == d[k..];
    assert d[j] == '.';
    JoinWithDot(d[..j], d[k..]);
    Around(d, j, k);
    EndsWithSuffix(d, j);
  }

  lemma ShapeIsDomain(d: string)
    requires WellSeparated(d) && EndsWithTopLevel(d)
    ensures Domain(d)
  {
    var j := if |d| >= 3 && d[|d| - 3] == '.' then |d| - 3 else |d| - 4;
    assert d[j] == '.';
    assert j > 0;
    WellSeparatedTake(d, j);
    DottedIffWellSeparated(d[..j]);
    ShortTopLevel(d[j..]);
  }

  /** A dot and two or three word characters form one top-level piece. */
  lemma ShortTopLevel(t: string)
    requires |t| == 3 || |t| == 4
    requires t[0] == '.' && forall i | 1 <= i < |t| :: IsWordChar(t[i])
    ensures TopLevel(t)
  {
  }

  lemma Around(d: string, j: nat, k: nat)
    requires j < |d| && k == j + 1
    ensures d[..j] + [d[j]] + d[k..] == d
  {
  }

  lemma EndsWithSuffix(d: string, j: nat)
    requires j <= |d| && EndsWithTopLevel(d[j..])
    ensures EndsWithTopLevel(d)
  {
    var t := d[j..];
    assert forall i | 0 <= i < |t| :: t[i] == d[j + i];
  }

  /** What an accepted address looks like: one `@`, word characters and single inner
      separators on both sides, and a dot with two or three word characters at the end. */
  lemma AcceptedAddress(s: string)
    requires MatchesPattern(s)
    ensures Count(s, '@') == 1
    ensures EndsWithTopLevel(s)
    ensures WellSeparated(Split(s, '@')[0]) && WellSeparated(Split(s, '@')[1])
  {
    PatternHasShape(s);
    SplitCount(s, '@');
    var parts := Split(s, '@');
    TwoPieces(s, '@');
    assert s[|parts[0]| + 1..] == parts[1];
    EndsWithSuffix(s, |parts[0]| + 1);
  }

  /** Four-letter and longer top levels are refused: `a@b.info` is rejected. */
  lemma LongTopLevelRejected()
    ensures !MatchesPattern("a@b.info")
  {
    var s := "a@b.info";
    assert s[|s| - 3] == 'n' && s[|s| - 4] == 'i';
    assert !EndsWithTopLevel(s);
    if MatchesPattern(s) {
      AcceptedAddress(s);
    }
  }
}

=== FILE: fields.dfy ===
/** What the models and handlers share about document fields. */
module Fields {
  import opened Wrappers

  /** A document id (an ObjectId in its string form). */
  type Id = string

  /** A string field that is there and non-empty: what a `required` validator
      accepts, and what the handlers treat as truthy. */
  predicate Present(v: Option<string>) {
    v.Some? && v.value != []
  }
}

=== FILE: hex.dfy ===
/** `Buffer.toString('hex')`: two lower-case hexadecimal digits per byte, high nibble first. */
module Hex {

  type Byte = b: int | 0 <= b < 256

  predicate IsLowerHexDigit(c: char) {
    ('0' <= c <= '9') || ('a' <= c <= 'f')
  }

  function HexDigit(n: int): (c: char)
    requires 0 <= n < 16
    ensures IsLowerHexDigit(c)
  {
    if n < 10 then (('0' as int) + n) as char else (('a' as int) + n - 10) as char
  }

  function HexValue(c: char): (n: int)
    requires IsLowerHexDigit(c)
    ensures 0 <= n < 16
  {
    if c <= '9' then (c as int) - ('0' as int) else (c as int) - ('a' as int) + 10
  }

  lemma HexValueOfDigit(n: int)
    requires 0 <= n < 16
    ensures HexValue(HexDigit(n)) == n
  {
  }

  function ToHex(bytes: seq<Byte>): (h: string)
    ensures |h| == 2 * |bytes|
    ensures forall i | 0 <= i < |h| :: IsLowerHexDigit(h[i])
  {
    if bytes == [] then []
    else [HexDigit(bytes[0] / 16), HexDigit(bytes[0] % 16)] + ToHex(bytes[1..])
  }

  function FromHex(h: string): seq<Byte>
    requires |h| % 2 == 0
    requires forall i | 0 <= i < |h| :: IsLowerHexDigit(h[i])
  {
    if h == [] then []
    else [16 * HexValue(h[0]) + HexValue(h[1])] + FromHex(h[2..])
  }

  /** The hex spelling loses nothing: decoding it gives the bytes back. */
  lemma {:induction false} HexRoundTrip(bytes: seq<Byte>)
    ensures FromHex(ToHex(bytes)) == bytes
  {
    if bytes != [] {
      var h := ToHex(bytes);
      HexValueOfDigit(bytes[0] / 16);
      HexValueOfDigit(bytes[0] % 16);
      assert h[2..] == ToHex(bytes[1..]);
      HexRoundTrip(bytes[1..]);
    }
  }
}

=== FILE: numbers.dfy ===
/** The numeric built-ins the core leans on: `parseInt(x, 10)`, the `|| default`
    idiom, `Math.ceil`, and the mean computed by an aggregation's `$avg`.
    Numbers are exact: integers are unbounded and averages are `real`. */
module Numbers {
  import opened Wrappers
  import opened Text

  /** Length of the run of decimal digits at the start of `s`. */
  function DigitRun(s: string): (n: nat)
    ensures n <= |s|
    ensures forall k | 0 <= k < n :: IsDigit(s[k])
    ensures n == |s| || !IsDigit(s[n])
  {
    if s != [] && IsDigit(s[0]) then 1 + DigitRun(s[1..]) else 0
  }

  function DigitValue(c: char): nat
    requires IsDigit(c)
  {
    (c as int) - ('0' as int)
  }

  /** The value of a string of decimal digits, most significant first. */
  function DigitsValue(d: string): nat
    requires forall k | 0 <= k < |d| :: IsDigit(d[k])
  {
    if d == [] then 0 else 10 * DigitsValue(d[..|d| - 1]) + DigitValue(d[|d| - 1])
  }

  /** What `parseInt` reads its digits from: `s` without leading white space and
      without one leading sign character. */
  function Unsigned(s: string): (u: string)
    ensures |u| <= |s| && u == s[|s| - |u|..]
  {
    var t := TrimStart(s);
    if t != [] && (t[0] == '-' || t[0] == '+') then t[1..] else t
  }

  /** `parseInt(s, 10)`: skip leading white space, take an optional sign, then the
      longest run of decimal digits; `None` stands for `NaN` (no digit there).
      Trailing characters after the digits are ignored. */
  function ParseInt(s: string): (r: Option<int>)
    ensures r.None? <==> Unsigned(s) == [] || !IsDigit(Unsigned(s)[0])
  {
    var t := TrimStart(s);
    var u := Unsigned(s);
    var n := DigitRun(u);
    var magnitude: int := DigitsValue(u[..n]);
    if n == 0 then None
    else if t[0] == '-' then Some(-magnitude)
    else Some(magnitude)
  }

  function DigitChar(d: nat): (c: char)
    requires d < 10
    ensures IsDigit(c) && DigitValue(c) == d
  {
    (('0' as int) + d) as char
  }

  /** The canonical decimal spelling of a natural number, no leading zeros. */
  function NatToDecimal(n: nat): (s: string)
    ensures |s| >= 1 && IsDigit(s[0])
    ensures forall k | 0 <= k < |s| :: IsDigit(s[k])
  {
    if n < 10 then [DigitChar(n)] else NatToDecimal(n / 10) + [DigitChar(n % 10)]
  }

  /** The canonical decimal spelling of an integer: a `-` before a negative one. */
  function IntToDecimal(n: int): string
  {
    if n < 0 then "-" + NatToDecimal(-n) else NatToDecimal(n)
  }

  lemma {:induction false} DigitsValueOfDecimal(n: nat)
    ensures DigitsValue(NatToDecimal(n)) == n
  {
    if n >= 10 {
      DigitsValueOfDecimal(n / 10);
      var s := NatToDecimal(n);
      assert s[..|s| - 1] == NatToDecimal(n / 10);
    }
  }

  /** `parseInt` reads back what the decimal spelling writes, also when other text
      that does not start with a digit follows it (`parseInt("12abc", 10)` is 12). */
  lemma ParseIntOfDecimal(n: int, rest: string)
    requires rest == [] || !IsDigit(rest[0])
    ensures ParseInt(IntToDecimal(n) + rest) == Some(n)
  {
    var m: nat := if n < 0 then -n else n;
    var d := NatToDecimal(m);
    var s := IntToDecimal(n) + rest;
    UnsignedOfDecimal(n, rest);
    DigitRunPrefix(d, rest);
    assert Unsigned(s)[..|d|] == d;
    DigitsValueOfDecimal(m);
  }

  lemma UnsignedOfDecimal(n: int, rest: string)
    ensures TrimStart(IntToDecimal(n) + rest) == IntToDecimal(n) + rest
    ensures Unsigned(IntToDecimal(n) + rest) == NatToDecimal(if n < 0 then -n else n) + rest
    ensures TrimStart(IntToDecimal(n) + rest)[0] == '-' <==> n < 0
  {
    var s := IntToDecimal(n) + rest;
    NotWhiteSpace(s[0]);
    if n < 0 {
      assert s == ['-'] + (NatToDecimal(-n) + rest);
    }
  }

  lemma NotWhiteSpace(c: char)
    requires c == '-' || IsDigit(c)
    ensures !IsWhiteSpace(c)
  {
  }

  lemma {:induction false} DigitRunPrefix(d: string, rest: string)
    requires forall k | 0 <= k < |d| :: IsDigit(d[k])
    requires rest == [] || !IsDigit(rest[0])
    ensures DigitRun(d + rest) == |d|
    decreases |d|
  {
    if d != [] {
      assert (d + rest)[1..] == d[1..] + rest;
      DigitRunPrefix(d[1..], rest);
    } else {
      assert d + rest == rest;
    }
  }

  /** `x || fallback` for a number produced by `parseInt`: `NaN` and `0` are falsy. */
  function OrDefault(parsed: Option<int>, fallback: int): (r: int)
    ensures parsed.Some? && parsed.value != 0 ==> r == parsed.value
    ensures (parsed.None? || parsed.value == 0) ==> r == fallback
    ensures fallback != 0 ==> r != 0
  {
    if parsed.Some? && parsed.value != 0 then parsed.value else fallback
  }

  /** `Math.ceil` on an exact real: the least integer not below `x`. */
  function Ceil(x: real): (r: int)
    ensures x <= r as real < x + 1.0
  {
    -((-x).Floor)
  }

  lemma CeilIsLeast(x: real, m: int)
    requires x <= m as real
    ensures Ceil(x) <= m
  {
  }

  function Sum(xs: seq<real>): real
  {
    if xs == [] then 0.0 else Sum(xs[..|xs| - 1]) + xs[|xs| - 1]
  }

  /** `$avg`: the arithmetic mean of a non-empty group. */
  function Mean(xs: seq<real>): (m: real)
    requires |xs| > 0
    ensures m * (|xs| as real) == Sum(xs)
  {
    Sum(xs) / (|xs| as real)
  }

  lemma {:induction false} SumBounds(xs: seq<real>, lo: real, hi: real)
    requires forall k | 0 <= k < |xs| :: lo <= xs[k] <= hi
    ensures (|xs| as real) * lo <= Sum(xs) <= (|xs| as real) * hi
  {
    if xs != [] {
      SumBounds(xs[..|xs| - 1], lo, hi);
    }
  }

  /** A mean lies between any common lower and upper bound of its values. */
  lemma MeanBounds(xs: seq<real>, lo: real, hi: real)
    requires |xs| > 0
    requires forall k | 0 <= k < |xs| :: lo <= xs[k] <= hi
    ensures lo <= Mean(xs) <= hi
  {
    SumBounds(xs, lo, hi);
    var n := |xs| as real;
    assert Mean(xs) * n == Sum(xs);
  }
}

=== FILE: operator_rewrite.dfy ===
/** The operator rewrite of the list middleware: in the serialised filter, every
    whole word `gt`, `gte`, `lt`, `lte` or `in` gets a `$` in front of it, which is
    what `queryStr.replace(/\b(gt|gte|lt|lte|in)\b/g, m => "$" + m)` does.
    It is a plain text substitution, not a parser: it also rewrites values
    (`"city":"in"` becomes `"city":"$in"`), and it is not idempotent. */
module OperatorRewrite {
  import opened Text

  /** The alternatives of the pattern. */
  predicate IsOperator(w: string) {
    w == "gt" || w == "gte" || w == "lt" || w == "lte" || w == "in"
  }

  /** Length of the run of word characters at the start of `s`. */
  function WordRun(s: string): (n: nat)
    ensures n <= |s|
  {
    if s != [] && IsWordChar(s[0]) then 1 + WordRun(s[1..]) else 0
  }

  /** The run is all word characters and stops at a non-word character or the end. */
  lemma {:induction false} WordRunIsMaximal(s: string)
    ensures forall k | 0 <= k < WordRun(s) :: IsWordChar(s[k])
    ensures WordRun(s) == |s| || !IsWordChar(s[WordRun(s)])
  {
    if s != [] && IsWordChar(s[0]) {
      WordRunIsMaximal(s[1..]);
    }
  }

  /** The text inserted in front of a word: `$` for a match, nothing otherwise. */
  function Dollar(matched: bool): string
  {
    if matched then "$" else ""
  }

  /** The global replace, scanning left to right. A match needs `\b` on both sides,
      so it is always a whole maximal word; a word that is not an operator is
      skipped as a whole, and a non-word character is copied. */
  function PrefixOperators(s: string): string
    decreases |s|
  {
    if s == [] then []
    else if !IsWordChar(s[0]) then [s[0]] + PrefixOperators(s[1..])
    else
      var n := WordRun(s);
      Dollar(IsOperator(s[..n])) + s[..n] + PrefixOperators(s[n..])
  }

  /** Position `i` begins a word: it holds a word character and the one before it, if any, is not. */
  predicate StartsWord(s: string, i: int) {
    0 <= i < |s| && IsWordChar(s[i]) && (i == 0 || !IsWordChar(s[i - 1]))
  }

  /** The maximal word that begins at position `i`. */
  function WordAt(s: string, i: nat): string
    requires i <= |s|
  {
    s[i..i + WordRun(s[i..])]
  }

  /** Position `i` is where the pattern matches: a whole word that is an operator begins there. */
  predicate Marked(s: string, i: nat)
    requires i <= |s|
  {
    StartsWord(s, i) && IsOperator(WordAt(s, i))
  }

  /** Reference definition, position by position: the characters of `s` from `i` on,
      each kept in place, with exactly one `$` inserted before every marked position. */
  function Spread(s: string, i: nat): string
    requires i <= |s|
    decreases |s| - i
  {
    if i == |s| then []
    else Dollar(Marked(s, i)) + [s[i]] + Spread(s, i + 1)
  }

  /** The replace inserts one `$` before each whole-word operator and changes nothing else. */
  lemma RewriteInsertsDollars(s: string)
    ensures PrefixOperators(s) == Spread(s, 0)
  {
    RewriteFrom(s, 0);
    assert s[0..] == s;
  }

  lemma {:induction false} RewriteFrom(s: string, i: nat)
    requires i <= |s|
    requires i == 0 || i == |s| || !IsWordChar(s[i - 1]) || !IsWordChar(s[i])
    ensures PrefixOperators(s[i..]) == Spread(s, i)
    decreases |s| - i, 1
  {
    if i == |s| {
    } else if !IsWordChar(s[i]) {
      var j := i + 1;
      RewriteFrom(s, j);
      UnfoldAtPunctuation(s[i..]);
      assert s[i..][1..] == s[j..];
      SpreadStep(s, i, j);
      assert !StartsWord(s, i);
      CopyStep(PrefixOperators(s[i..]), Spread(s, i), s[i], Spread(s, j), Dollar(Marked(s, i)));
    } else {
      WordCase(s, i);
    }
  }

  lemma {:induction false} WordCase(s: string, i: nat)
    requires i < |s| && IsWordChar(s[i])
    requires i == 0 || !IsWordChar(s[i - 1])
    ensures PrefixOperators(s[i..]) == Spread(s, i)
    decreases |s| - i, 0
  {
    var e := i + WordRun(s[i..]);
    WordEnd(s, i, e);
    RewriteFrom(s, e);
    RewriteAtWordStart(s, i, e);
    SpreadAtWordStart(s, i, e);
    var head := Dollar(IsOperator(s[i..e])) + s[i..e];
    SameTail(PrefixOperators(s[i..]), Spread(s, i), head, PrefixOperators(s[e..]), Spread(s, e));
  }

  /** The replace handles the whole word from `i` to `e` in one step. */
  lemma RewriteAtWordStart(s: string, i: nat, e: nat)
    requires i < |s| && IsWordChar(s[i])
    requires e == i + WordRun(s[i..]) && e <= |s|
    ensures PrefixOperators(s[i..]) == Dollar(IsOperator(s[i..e])) + s[i..e] + PrefixOperators(s[e..])
  {
    WordEnd(s, i, e);
    UnfoldAtWord(s[i..]);
  }

  /** The reference puts the word's `$` in front and copies the rest of the word. */
  lemma SpreadAtWordStart(s: string, i: nat, e: nat)
    requires StartsWord(s, i)
    requires e == i + WordRun(s[i..])
    ensures e <= |s|
    ensures Spread(s, i) == Dollar(IsOperator(s[i..e])) + s[i..e] + Spread(s, e)
  {
    WordEnd(s, i, e);
    var j := i + 1;
    InsideWord(s, j, e);
    SpreadStep(s, i, j);
    ConsSlice(s, i, j, e);
    MarkedAtWordStart(s, i, e);
    Regroup(Dollar(IsOperator(s[i..e])) + s[i..e] + Spread(s, e), Spread(s, i),
            Dollar(Marked(s, i)), s[i..e], [s[i]], s[j..e], Spread(s, e));
  }

  lemma SameTail(a: string, b: string, head: string, x: string, y: string)
    requires a == head + x && b == head + y && x == y
    ensures a == b
  {
  }

  /** Where a word starts, the pattern matches exactly when that word is an operator. */
  lemma MarkedAtWordStart(s: string, i: nat, e: nat)
    requires StartsWord(s, i) && e == i + WordRun(s[i..])
    ensures Marked(s, i) <==> IsOperator(s[i..e])
  {
  }

  /** The word that starts at `i` ends at `e`, inside `s`. */
  lemma WordEnd(s: string, i: nat, e: nat)
    requires i < |s| && IsWordChar(s[i])
    requires e == i + WordRun(s[i..])
    ensures i < e <= |s|
    ensures e == |s| || !IsWordChar(s[e])
    ensures forall k | i <= k < e :: IsWordChar(s[k])
    ensures s[i..][..e - i] == s[i..e]
    ensures s[i..][e - i..] == s[e..]
  {
    var t := s[i..];
    var n := e - i;
    WordRunIsMaximal(t);
    assert t[0] == s[i];
    forall k | i <= k < e
      ensures IsWordChar(s[k])
    {
      assert s[k] == t[k - i];
    }
    if e < |s| {
      assert s[e] == t[n];
    }
  }

  lemma CopyStep(a: string, b: string, c: char, x: string, d: string)
    requires a == [c] + x && b == d + [c] + x && d == []
    ensures a == b
  {
  }

  /** The reference definition, one position at a time. */
  lemma SpreadStep(s: string, i: nat, j: nat)
    requires i < |s| && j == i + 1
    ensures Spread(s, i) == Dollar(Marked(s, i)) + [s[i]] + Spread(s, j)
  {
  }

  /** One step of the replace on text that begins with a non-word character. */
  lemma UnfoldAtPunctuation(t: string)
    requires t != [] && !IsWordChar(t[0])
    ensures PrefixOperators(t) == [t[0]] + PrefixOperators(t[1..])
  {
  }


  lemma Regroup(p: string, q: string, a: string, w: string, b: string, c: string, x: string)
    requires w == b + c
    requires p == a + w + x
    requires q == a + b + (c + x)
    ensures p == q
  {
  }

  /** Positions inside a word are never marked, so the reference copies them unchanged. */
  lemma {:induction false} InsideWord(s: string, j: nat, e: nat)
    requires 1 <= j <= e <= |s|
    requires forall k | j - 1 <= k < e :: IsWordChar(s[k])
    ensures Spread(s, j) == s[j..e] + Spread(s, e)
    decreases e - j
  {
    if j < e {
      var k := j + 1;
      InsideWord(s, k, e);
      SpreadCopies(s, j, k);
      ConsSlice(s, j, k, e);
      AssociateCons(s[j], s[k..e], Spread(s, e));
    }
  }

  /** A position right after a word character is copied without a `$`. */
  lemma SpreadCopies(s: string, j: nat, k: nat)
    requires 1 <= j < |s| && IsWordChar(s[j - 1]) && k == j + 1
    ensures Spread(s, j) == [s[j]] + Spread(s, k)
  {
    assert !StartsWord(s, j);
    assert Dollar(false) == [];
  }

  lemma ConsSlice(s: string, j: nat, k: nat, e: nat)
    requires j < e <= |s| && k == j + 1
    ensures s[j..e] == [s[j]] + s[k..e]
  {
  }

  lemma AssociateCons(c: char, x: string, y: string)
    ensures [c] + (x + y) == [c] + x + y
  {
  }

  /** A serialised filter without any whole-word operator passes through unchanged. */
  lemma NoOperatorUnchanged(s: string)
    requires forall i | 0 <= i < |s| :: !Marked(s, i)
    ensures PrefixOperators(s) == s
  {
    RewriteInsertsDollars(s);
    SpreadUnmarked(s, 0);
    assert s[0..] == s;
  }

  lemma {:induction false} SpreadUnmarked(s: string, i: nat)
    requires i <= |s|
    requires forall k | i <= k < |s| :: !Marked(s, k)
    ensures Spread(s, i) == s[i..]
    decreases |s| - i
  {
    if i < |s| {
      var j := i + 1;
      SpreadUnmarked(s, j);
      SpreadStep(s, i, j);
      assert s[i..] == [s[i]] + s[j..];
    }
  }

  /** The replace works word by word, so it distributes over a concatenation whose
      seam does not fall inside a word. */
  lemma {:induction false} RewriteConcat(p: string, r: string)
    requires p == [] || r == [] || !IsWordChar(p[|p| - 1]) || !IsWordChar(r[0])
    ensures PrefixOperators(p + r) == PrefixOperators(p) + PrefixOperators(r)
    decreases |p|, 1
  {
    if p == [] {
      assert p + r == r;
    } else if !IsWordChar(p[0]) {
      assert (p + r)[1..] == p[1..] + r;
      RewriteConcat(p[1..], r);
      assert [p[0]] + (PrefixOperators(p[1..]) + PrefixOperators(r)) == [p[0]] + PrefixOperators(p[1..]) + PrefixOperators(r);
    } else {
      RewriteConcatWord(p, r);
    }
  }

  lemma {:induction false} RewriteConcatWord(p: string, r: string)
    requires p != [] && IsWordChar(p[0])
    requires r == [] || !IsWordChar(p[|p| - 1]) || !IsWordChar(r[0])
    ensures PrefixOperators(p + r) == PrefixOperators(p) + PrefixOperators(r)
    decreases |p|, 0
  {
    var n := WordRun(p);
    WordRunConcat(p, r);
    var d := Dollar(IsOperator(p[..n]));
    var pr := p + r;
    SplitConcat(p, r, n);
    UnfoldAtWord(p);
    UnfoldAtWord(pr);
    if n < |p| {
      RewriteConcat(p[n..], r);
    } else {
      assert p[n..] == [];
    }
    Combine(PrefixOperators(pr), PrefixOperators(p), d + p[..n],
            PrefixOperators(p[n..] + r), PrefixOperators(p[n..]), PrefixOperators(r));
  }

  /** One step of the replace on text that begins with a word. */
  lemma UnfoldAtWord(t: string)
    requires t != [] && IsWordChar(t[0])
    ensures PrefixOperators(t) == Dollar(IsOperator(t[..WordRun(t)])) + t[..WordRun(t)] + PrefixOperators(t[WordRun(t)..])
  {
  }

  lemma SplitConcat(p: string, r: string, n: nat)
    requires n <= |p|
    ensures (p + r)[..n] == p[..n] && (p + r)[n..] == p[n..] + r
  {
  }

  lemma Combine(a: string, b: string, head: string, x: string, y: string, z: string)
    requires a == head + x && b == head + y && x == y + z
    ensures a == b + z
  {
  }

  lemma Associate(x: string, y: string, z: string)
    ensures x + (y + z) == x + y + z
  {
  }

  lemma {:induction false} WordRunConcat(p: string, r: string)
    requires p == [] || r == [] || !IsWordChar(p[|p| - 1]) || !IsWordChar(r[0])
    ensures WordRun(p + r) == (if WordRun(p) == |p| then |p| + WordRun(r) else WordRun(p))
    ensures WordRun(p) == |p| && p != [] ==> WordRun(p + r) == |p|
    decreases |p|
  {
    if p == [] {
      assert p + r == r;
    } else if IsWordChar(p[0]) {
      assert (p + r)[1..] == p[1..] + r;
      WordRunConcat(p[1..], r);
    }
  }

  /** A lone word is prefixed exactly when it is an operator. */
  lemma RewriteWord(w: string)
    requires |w| > 0
    requires forall k | 0 <= k < |w| :: IsWordChar(w[k])
    ensures PrefixOperators(w) == Dollar(IsOperator(w)) + w
  {
    WordRunAll(w);
    assert w[..|w|] == w;
    assert w[|w|..] == [];
  }

  lemma {:induction false} WordRunAll(w: string)
    requires forall k | 0 <= k < |w| :: IsWordChar(w[k])
    ensures WordRun(w) == |w|
  {
    if w != [] {
      WordRunAll(w[1..]);
    }
  }

  /** Text without word characters passes through unchanged. */
  lemma {:induction false} RewritePunctuation(x: string)
    requires forall k | 0 <= k < |x| :: !IsWordChar(x[k])
    ensures PrefixOperators(x) == x
  {
    if x != [] {
      RewritePunctuation(x[1..]);
      assert x == [x[0]] + x[1..];
    }
  }

  /** A word between two non-word characters (a quoted key or string value in the
      serialised filter) is prefixed exactly when it is an operator. */
  lemma {:induction false} EnclosedWord(open: string, w: string, close: string)
    requires |open| == 1 && !IsWordChar(open[0])
    requires |close| == 1 && !IsWordChar(close[0])
    requires |w| > 0
    requires forall k | 0 <= k < |w| :: IsWordChar(w[k])
    ensures PrefixOperators(open + w + close) == open + Dollar(IsOperator(w)) + w + close
  {
    var d := Dollar(IsOperator(w));
    RewriteWord(w);
    RewritePunctuation(open);
    RewritePunctuation(close);
    RewriteConcat(w, close);
    var m := w + close;
    RewriteConcat(open, m);
    Associate(open, w, close);
    assert PrefixOperators(m) == d + w + close;
    Associate(open, d + w, close);
    Associate(open, d, w);
  }

  /** A value is rewritten like a key: in the serialised filter of `?city=in`,
      the string value "in" becomes the operator name "$in". */
  lemma ValuesRewrittenToo()
    ensures PrefixOperators("\"in\"") == "\"$in\""
  {
    EnclosedWord("\"", "in", "\"");
    assert "\"in\"" == "\"" + "in" + "\"";
  }

  /** The rewrite is not idempotent: an already prefixed operator gains a second `$`,
      because `$` is not a word character and the word after it is still whole. */
  lemma NotIdempotent()
    ensures PrefixOperators("gt") == "$gt"
    ensures PrefixOperators("$gt") == "$$gt"
  {
    RewriteWord("gt");
    RewriteConcat("$", "gt");
    RewritePunctuation("$");
    assert "$gt" == "$" + "gt";
  }
}

=== FILE: review_model.dfy ===
/** The review schema: its validators and defaults, and the average-rating aggregate
    that the save and remove hooks recompute for the review's bootcamp. */
module ReviewModel {
  import opened Wrappers
  import opened Text
  import opened Numbers
  import opened BootcampStats
  import opened Fields

  const MaxTitleLength: nat := 100
  const MinRating: real := 1.0
  const MaxRating: real := 10.0
  /** The rating written when a bootcamp has no review left. */
  const NoRating: real := 0.0

  datatype Review = Review(
    id: Id,
    title: string,
    text: string,
    rating: real,
    createdAt: int,
    bootcamp: Id,
    user: Id)

  /** The fields a client supplies; `None` is an absent field. */
  datatype ReviewInput = ReviewInput(
    title: Option<string>,
    text: Option<string>,
    rating: Option<real>,
    createdAt: Option<int>,
    bootcamp: Option<Id>,
    user: Option<Id>)

  datatype Violation =
    | TitleRequired
    | TitleTooLong
    | TextRequired
    | RatingRequired
    | RatingTooLow
    | RatingTooHigh
    | BootcampRequired
    | UserRequired

  const AllViolations: set<Violation> :=
    {TitleRequired, TitleTooLong, TextRequired, RatingRequired, RatingTooLow, RatingTooHigh,
     BootcampRequired, UserRequired}

  /** Whether one validator rejects the input; the title is checked after its setter trims it. */
  predicate Fails(input: ReviewInput, v: Violation) {
    match v
    case TitleRequired => input.title.None? || Trim(input.title.value) == []
    case TitleTooLong => input.title.Some? && |Trim(input.title.value)| > MaxTitleLength
    case TextRequired => input.text.None? || input.text.value == []
    case RatingRequired => input.rating.None?
    case RatingTooLow => input.rating.Some? && input.rating.value < MinRating
    case RatingTooHigh => input.rating.Some? && input.rating.value > MaxRating
    case BootcampRequired => input.bootcamp.None?
    case UserRequired => input.user.None?
  }

  /** Every failing validator. */
  function Violations(input: ReviewInput): (vs: set<Violation>)
    ensures forall v :: v in vs <==> Fails(input, v)
  {
    set v | v in AllViolations && Fails(input, v)
  }

  /** An input passes validation exactly when its trimmed title has 1 to 100
      characters, its text is not empty, its rating lies in [1, 10] and it names a
      bootcamp and a user. */
  lemma AcceptedInput(input: ReviewInput)
    ensures Violations(input) == {} <==>
      && input.title.Some? && 0 < |Trim(input.title.value)| <= MaxTitleLength
      && input.text.Some? && input.text.value != []
      && input.rating.Some? && MinRating <= input.rating.value <= MaxRating
      && input.bootcamp.Some? && input.user.Some?
  {
    if Violations(input) == {} {
      assert !Fails(input, TitleRequired) && !Fails(input, TitleTooLong) && !Fails(input, TextRequired);
      assert !Fails(input, RatingRequired) && !Fails(input, RatingTooLow) && !Fails(input, RatingTooHigh);
      assert !Fails(input, BootcampRequired) && !Fails(input, UserRequired);
    }
  }

  /** A review that could have passed validation. */
  predicate Valid(r: Review) {
    && r.title != [] && |r.title| <= MaxTitleLength
    && r.text != []
    && MinRating <= r.rating <= MaxRating
  }

  /** A new review; `createdAt` defaults to the creation time. */
  function NewReview(input: ReviewInput, id: Id, now: int): (r: Result<Review, set<Violation>>)
    ensures r.Failure? <==> Violations(input) != {}
    ensures r.Failure? ==> r.error == Violations(input)
    ensures r.Success? ==> Valid(r.value) && input.title.Some? && r.value.title == Trim(input.title.value)
    ensures r.Success? ==> r.value.createdAt == input.createdAt.GetOr(now)
    ensures r.Success? ==> && r.value.id == id
                           && input.text == Some(r.value.text)
                           && input.rating == Some(r.value.rating)
                           && input.bootcamp == Some(r.value.bootcamp)
                           && input.user == Some(r.value.user)
  {
    if Violations(input) != {} then Failure(Violations(input))
    else
      AcceptedInput(input);
      Success(Review(id, Trim(input.title.value), input.text.value, input.rating.value,
                        input.createdAt.GetOr(now), input.bootcamp.value, input.user.value))
  }

  /** The reviews of one bootcamp, in store order: each matching review as often as
      it is stored, no other review. */
  function ReviewsOf(reviews: seq<Review>, bootcamp: Id): (r: seq<Review>)
    ensures forall v :: multiset(r)[v] == if v.bootcamp == bootcamp then multiset(reviews)[v] else 0
    ensures forall v :: v in r <==> v in reviews && v.bootcamp == bootcamp
    ensures |r| <= |reviews|
  {
    if reviews == [] then []
    else
      assert reviews == [reviews[0]] + reviews[1..];
      (if reviews[0].bootcamp == bootcamp then [reviews[0]] else []) + ReviewsOf(reviews[1..], bootcamp)
  }

  function Ratings(vs: seq<Review>): (rs: seq<real>)
    ensures |rs| == |vs|
    ensures forall i | 0 <= i < |vs| :: rs[i] == vs[i].rating
  {
    seq(|vs|, i requires 0 <= i < |vs| => vs[i].rating)
  }

  /** The value `getAverageRating` writes: the exact mean rating of the bootcamp's
      reviews, or zero when it has none. */
  function AverageRatingOf(reviews: seq<Review>, bootcamp: Id): (avg: real)
    ensures ReviewsOf(reviews, bootcamp) == [] ==> avg == NoRating
    ensures ReviewsOf(reviews, bootcamp) != [] ==> avg == Mean(Ratings(ReviewsOf(reviews, bootcamp)))
  {
    var rs := Ratings(ReviewsOf(reviews, bootcamp));
    if rs == [] then NoRating else Mean(rs)
  }

  /** `getAverageRating(bootcampId)`: the average is written to that bootcamp, when
      it exists, and nothing else changes. */
  function AverageRating(reviews: seq<Review>, bootcamp: Id, bs: Bootcamps): (r: Bootcamps)
    ensures r.Keys == bs.Keys
    ensures bootcamp in bs ==> r[bootcamp] == bs[bootcamp].(averageRating := Some(AverageRatingOf(reviews, bootcamp)))
    ensures bootcamp in bs && ReviewsOf(reviews, bootcamp) == [] ==> r[bootcamp].averageRating == Some(NoRating)
    ensures forall other | other in bs && other != bootcamp :: r[other] == bs[other]
  {
    SetAverageRating(bs, bootcamp, AverageRatingOf(reviews, bootcamp))
  }

  /** With only valid reviews, a bootcamp that has any is rated between 1 and 10. */
  lemma {:induction false} RatingInRange(reviews: seq<Review>, bootcamp: Id)
    requires forall v | v in reviews :: Valid(v)
    requires ReviewsOf(reviews, bootcamp) != []
    ensures MinRating <= AverageRatingOf(reviews, bootcamp) <= MaxRating
  {
    var group := ReviewsOf(reviews, bootcamp);
    var rs := Ratings(group);
    forall i | 0 <= i < |rs| ensures MinRating <= rs[i] <= MaxRating {
      assert group[i] in group;
    }
    MeanBounds(rs, MinRating, MaxRating);
  }

  /** The save hook: the saved review replaces the stored one with its id, or is
      added, and its bootcamp's average is recomputed. */
  function Save(reviews: seq<Review>, v: Review, bs: Bootcamps): (r: (seq<Review>, Bootcamps))
    ensures multiset(r.0) == multiset(Without(reviews, v.id)) + multiset{v}
    ensures v in r.0
    ensures forall w :: w in r.0 ==> w == v || (w in reviews && w.id != v.id)
    ensures forall w :: w in reviews && w.id != v.id ==> w in r.0
    ensures r.1 == AverageRating(r.0, v.bootcamp, bs)
  {
    var stored := Upsert(reviews, v);
    (stored, AverageRating(stored, v.bootcamp, bs))
  }

  function Upsert(reviews: seq<Review>, v: Review): (r: seq<Review>)
    ensures multiset(r) == multiset(Without(reviews, v.id)) + multiset{v}
    ensures v in r
    ensures forall w :: w in r ==> w == v || (w in reviews && w.id != v.id)
    ensures forall w :: w in reviews && w.id != v.id ==> w in r
  {
    var r :=
      if reviews == [] then [v]
      else if reviews[0].id == v.id then [v] + Without(reviews[1..], v.id)
      else [reviews[0]] + Upsert(reviews[1..], v);
    UpsertMembers(r, Without(reviews, v.id), reviews, v);
    r
  }

  /** Membership after a save, read off its multiplicities: `kept` stands for the
      stored reviews without the saved id. */
  lemma UpsertMembers(r: seq<Review>, kept: seq<Review>, reviews: seq<Review>, v: Review)
    requires forall w :: w in kept <==> w in reviews && w.id != v.id
    requires multiset(r) == multiset(kept) + multiset{v}
    ensures v in r
    ensures forall w :: w in r ==> w == v || (w in reviews && w.id != v.id)
    ensures forall w :: w in reviews && w.id != v.id ==> w in r
  {
    assert v in multiset(r);
    forall w | w in r
      ensures w == v || (w in reviews && w.id != v.id)
    {
      assert w in multiset(r);
    }
    forall w | w in reviews && w.id != v.id
      ensures w in r
    {
      assert w in multiset(kept);
      assert w in multiset(r);
    }
  }

  function Without(reviews: seq<Review>, id: Id): (r: seq<Review>)
    ensures forall w :: multiset(r)[w] == if w.id == id then 0 else multiset(reviews)[w]
    ensures forall w :: w in r <==> w in reviews && w.id != id
  {
    if reviews == [] then []
    else
      assert reviews == [reviews[0]] + reviews[1..];
      (if reviews[0].id == id then [] else [reviews[0]]) + Without(reviews[1..], id)
  }

  /** The remove hook: the review is gone and its bootcamp's average recomputed without it. */
  function Remove(reviews: seq<Review>, v: Review, bs: Bootcamps): (r: (seq<Review>, Bootcamps))
    ensures forall w :: multiset(r.0)[w] == if w.id == v.id then 0 else multiset(reviews)[w]
    ensures forall w :: w in r.0 <==> w in reviews && w.id != v.id
    ensures r.1 == AverageRating(r.0, v.bootcamp, bs)
  {
    var stored := Without(reviews, v.id);
    (stored, AverageRating(stored, v.bootcamp, bs))
  }

  /** Removing the last review of a bootcamp resets its rating to zero. */
  lemma LastReviewResetsRating(reviews: seq<Review>, v: Review, bs: Bootcamps)
    requires v.bootcamp in bs
    requires forall w | w in reviews && w.bootcamp == v.bootcamp :: w.id == v.id
    ensures Remove(reviews, v, bs).1[v.bootcamp].averageRating == Some(NoRating)
  {
    var stored := Remove(reviews, v, bs).0;
    assert forall w | w in stored :: w.bootcamp != v.bootcamp;
    NoReviewsLeft(stored, v.bootcamp);
  }

  lemma NoReviewsLeft(stored: seq<Review>, bootcamp: Id)
    requires forall w | w in stored :: w.bootcamp != bootcamp
    ensures ReviewsOf(stored, bootcamp) == []
  {
  }
}

=== FILE: reviews_controller.dfy ===
/** `getReviews`: the reviews of one bootcamp when the route names one, otherwise
    the page the result paginator prepared. */
module ReviewsController {
  import opened Wrappers
  import opened Fields
  import opened BootcampStats
  import opened ReviewModel
  import opened AdvancedResults

  const OkStatus: int := 200

  datatype Reply =
    /** `{success: true, count, data}` for one bootcamp's reviews. */
    | Scoped(status: int, success: bool, count: nat, data: seq<Review>)
    /** `res.advancedResults` as the paginator left it (absent when it did not run). */
    | Forwarded(status: int, body: Option<Envelope<Review>>)

  /** `bootcampId` is the route parameter; `advanced` is what the paginator attached
      to the response. */
  function GetReviews(bootcampId: Option<Id>, reviews: seq<Review>, advanced: Option<Envelope<Review>>): (r: Reply)
    ensures r.status == OkStatus
    ensures r.Scoped? <==> bootcampId.Some? && bootcampId.value != []
    ensures r.Scoped? ==> r.success && r.count == |r.data|
    ensures r.Scoped? ==> forall v :: v in r.data <==> v in reviews && v.bootcamp == bootcampId.value
    ensures r.Scoped? ==> forall v :: multiset(r.data)[v] == if v.bootcamp == bootcampId.value then multiset(reviews)[v] else 0
    ensures r.Forwarded? ==> r.body == advanced
  {
    if bootcampId.Some? && bootcampId.value != [] then
      var found := ReviewsOf(reviews, bootcampId.value);
      Scoped(OkStatus, true, |found|, found)
    else
      Forwarded(OkStatus, advanced)
  }

  /** Once the remove hook has run, the review is no longer listed for its bootcamp. */
  lemma RemovedReviewNotListed(reviews: seq<Review>, v: Review, bs: Bootcamps, advanced: Option<Envelope<Review>>)
    requires v.bootcamp != []
    ensures v !in GetReviews(Some(v.bootcamp), Remove(reviews, v, bs).0, advanced).data
  {
  }
}

=== FILE: text.dfy ===
/** Character classes and the few `String.prototype` operations the core relies on:
    `split` with a one-character separator, `join`, `startsWith` and `trim`. */
module Text {

  /** `\w` in a JavaScript regular expression without the `u` flag: `[A-Za-z0-9_]`. */
  predicate IsWordChar(c: char) {
    ('a' <= c <= 'z') || ('A' <= c <= 'Z') || ('0' <= c <= '9') || c == '_'
  }

  predicate IsDigit(c: char) {
    '0' <= c <= '9'
  }

  /** ECMAScript WhiteSpace and LineTerminator code points: what `trim` and `parseInt` skip. */
  predicate IsWhiteSpace(c: char) {
    || c == '\t' || c == '\n' || c == '\U{000B}' || c == '\U{000C}' || c == '\r' || c == ' '
    || c == '\U{00A0}' || c == '\U{1680}' || ('\U{2000}' <= c <= '\U{200A}')
    || c == '\U{2028}' || c == '\U{2029}' || c == '\U{202F}' || c == '\U{205F}'
    || c == '\U{3000}' || c == '\U{FEFF}'
  }

  /** `s.startsWith(prefix)`. */
  predicate StartsWith(s: string, prefix: string) {
    |prefix| <= |s| && s[..|prefix|] == prefix
  }

  /** `s.startsWith(prefix)` holds exactly when `s` is `prefix` followed by some rest. */
  lemma StartsWithIffPrefix(s: string, prefix: string)
    ensures StartsWith(s, prefix) <==> exists rest: string :: s == prefix + rest
  {
    if StartsWith(s, prefix) {
      assert s == prefix + s[|prefix|..];
    }
    forall rest: string | s == prefix + rest
      ensures StartsWith(s, prefix)
    {
      assert s[..|prefix|] == prefix;
    }
  }

  /** `parts.join(sep)` for a one-character separator; `[].join(sep)` is the empty string. */
  function Join(parts: seq<string>, sep: char): string
  {
    if |parts| == 0 then []
    else if |parts| == 1 then parts[0]
    else parts[0] + [sep] + Join(parts[1..], sep)
  }

  /** `s.split(sep)` for a one-character separator: the pieces between separators,
      always at least one (`"".split(",")` is `[""]`). */
  function Split(s: string, sep: char): (parts: seq<string>)
    ensures |parts| >= 1
    ensures forall i | 0 <= i < |parts| :: sep !in parts[i]
    ensures Join(parts, sep) == s
    decreases |s|
  {
    if s == [] then [[]]
    else if s[0] == sep then [[]] + Split(s[1..], sep)
    else
      var rest := Split(s[1..], sep);
      assert s == [s[0]] + s[1..];
      [[s[0]] + rest[0]] + rest[1..]
  }

  /** Splitting a join of separator-free pieces gives the pieces back. */
  lemma {:induction false} SplitJoin(parts: seq<string>, sep: char)
    requires |parts| >= 1
    requires forall i | 0 <= i < |parts| :: sep !in parts[i]
    ensures Split(Join(parts, sep), sep) == parts
    decreases |parts|, |parts[0]|
  {
    if |parts[0]| > 0 {
      var p := parts[0];
      var tail := [p[1..]] + parts[1..];
      assert Join(parts, sep) == [p[0]] + Join(tail, sep) by {
        assert p == [p[0]] + p[1..];
        if |parts| > 1 {
          assert tail[1..] == parts[1..];
        }
      }
      assert sep !in p[1..] by {
        assert forall k | 0 <= k < |p[1..]| :: p[1..][k] == p[k + 1];
      }
      SplitJoin(tail, sep);
      assert [p[0]] + Join(tail, sep) != [];
      assert ([p[0]] + Join(tail, sep))[1..] == Join(tail, sep);
      assert [[p[0]] + p[1..]] + tail[1..] == parts;
    } else if |parts| == 1 {
    } else {
      assert Join(parts, sep) == [sep] + Join(parts[1..], sep);
      SplitJoin(parts[1..], sep);
      assert ([sep] + Join(parts[1..], sep))[1..] == Join(parts[1..], sep);
      assert [[]] + parts[1..] == parts;
    }
  }

  /** Number of occurrences of `c` in `s`. */
  function Count(s: string, c: char): nat
  {
    if s == [] then 0 else (if s[0] == c then 1 else 0) + Count(s[1..], c)
  }

  /** `split` yields one more piece than there are separators. */
  lemma {:induction false} SplitCount(s: string, sep: char)
    ensures |Split(s, sep)| == Count(s, sep) + 1
    decreases |s|
  {
    if s != [] {
      SplitCount(s[1..], sep);
    }
  }

  /** `join` puts exactly one separator between consecutive pieces and no other:
      the joined text holds one separator fewer than there are pieces. */
  lemma JoinSeparators(parts: seq<string>, sep: char)
    requires |parts| >= 1
    requires forall i | 0 <= i < |parts| :: sep !in parts[i]
    ensures Count(Join(parts, sep), sep) == |parts| - 1
  {
    SplitJoin(parts, sep);
    SplitCount(Join(parts, sep), sep);
  }

  /** A string without the separator splits into itself alone. */
  lemma {:induction false} SplitWithoutSeparator(s: string, sep: char)
    requires sep !in s
    ensures Split(s, sep) == [s]
    decreases |s|
  {
    if s != [] {
      assert sep !in s[1..] by {
        assert forall k | 0 <= k < |s[1..]| :: s[1..][k] == s[k + 1];
      }
      SplitWithoutSeparator(s[1..], sep);
      assert [s[0]] + s[1..] == s;
    }
  }

  /** A string with exactly one separator, at `k`, splits into the two sides of it. */
  lemma SplitAround(s: string, k: nat, sep: char)
    requires k < |s| && s[k] == sep
    requires sep !in s[..k] && sep !in s[k + 1..]
    ensures Split(s, sep) == [s[..k], s[k + 1..]]
  {
    var parts := [s[..k], s[k + 1..]];
    assert parts[1..] == [s[k + 1..]];
    assert Join(parts, sep) == s[..k] + [sep] + s[k + 1..];
    assert s[..k] + [sep] + s[k + 1..] == s;
    SplitJoin(parts, sep);
  }

  /** A string that splits into exactly two pieces is those pieces around the separator. */
  lemma TwoPieces(s: string, sep: char)
    requires |Split(s, sep)| == 2
    ensures s == Split(s, sep)[0] + [sep] + Split(s, sep)[1]
  {
    var parts := Split(s, sep);
    assert parts[1..] == [parts[1]];
    assert Join(parts[1..], sep) == parts[1];
  }

  /** Every occurrence of `from` replaced by `to`, all other characters kept in place. */
  function ReplaceChar(s: string, from: char, to: char): (r: string)
    ensures |r| == |s|
  {
    seq(|s|, i requires 0 <= i < |s| => if s[i] == from then to else s[i])
  }

  /** `s.split(a).join(b)` is exactly the character-by-character replacement of `a` by `b`. */
  lemma {:induction false} SplitJoinReplaces(s: string, a: char, b: char)
    ensures Join(Split(s, a), b) == ReplaceChar(s, a, b)
    decreases |s|
  {
    if s != [] {
      SplitJoinReplaces(s[1..], a, b);
      var rest := Split(s[1..], a);
      ReplaceCons(s, a, b);
      if s[0] == a {
        JoinEmptyHead(rest, b);
      } else {
        JoinExtendHead(s[0], rest, b);
      }
    }
  }

  lemma ReplaceCons(s: string, a: char, b: char)
    requires s != []
    ensures ReplaceChar(s, a, b) == [if s[0] == a then b else s[0]] + ReplaceChar(s[1..], a, b)
  {
  }

  /** Joining after an extra empty first piece puts one more separator in front. */
  lemma JoinEmptyHead(rest: seq<string>, b: char)
    requires |rest| >= 1
    ensures Join([[]] + rest, b) == [b] + Join(rest, b)
  {
    assert ([[]] + rest)[1..] == rest;
  }

  /** Joining after a character is prepended to the first piece puts it in front. */
  lemma JoinExtendHead(c: char, rest: seq<string>, b: char)
    requires |rest| >= 1
    ensures Join([[c] + rest[0]] + rest[1..], b) == [c] + Join(rest, b)
  {
    var parts := [[c] + rest[0]] + rest[1..];
    if |rest| > 1 {
      assert parts[1..] == rest[1..];
      Associate3(c, rest[0], [b] + Join(rest[1..], b));
    }
  }

  lemma Associate3(c: char, x: string, y: string)
    ensures [c] + x + y == [c] + (x + y)
  {
  }

  /** `s.trim()`: leading and trailing white space removed. */
  function Trim(s: string): (r: string)
    ensures exists i, j | 0 <= i <= j <= |s| :: TrimmedAt(s, i, j) && r == s[i..j]
    ensures r == [] || (!IsWhiteSpace(r[0]) && !IsWhiteSpace(r[|r| - 1]))
  {
    var t := TrimStart(s);
    var u := TrimEnd(t);
    TrimmedSlice(s, t, u);
    u
  }

  /** Only white space lies before `i` and from `j` on. */
  predicate TrimmedAt(s: string, i: nat, j: nat)
    requires i <= j <= |s|
  {
    && (forall k | 0 <= k < i :: IsWhiteSpace(s[k]))
    && (forall k | j <= k < |s| :: IsWhiteSpace(s[k]))
  }

  lemma TrimmedSlice(s: string, t: string, u: string)
    requires |t| <= |s| && t == s[|s| - |t|..]
    requires |u| <= |t| && u == t[..|u|]
    requires forall k | 0 <= k < |s| - |t| :: IsWhiteSpace(s[k])
    requires forall k | |u| <= k < |t| :: IsWhiteSpace(t[k])
    ensures exists i, j | 0 <= i <= j <= |s| :: TrimmedAt(s, i, j) && u == s[i..j]
  {
    var i := |s| - |t|;
    var j := i + |u|;
    assert u == s[i..][..|u|];
    assert u == s[i..j];
    forall k | j <= k < |s|
      ensures IsWhiteSpace(s[k])
    {
      assert s[k] == t[k - i];
    }
    assert TrimmedAt(s, i, j);
  }

  /** `s` without its leading white space. */
  function TrimStart(s: string): (r: string)
    ensures |r| <= |s| && r == s[|s| - |r|..]
    ensures forall k | 0 <= k < |s| - |r| :: IsWhiteSpace(s[k])
    ensures r == [] || !IsWhiteSpace(r[0])
  {
    if s != [] && IsWhiteSpace(s[0]) then TrimStart(s[1..]) else s
  }

  /** `s` without its trailing white space. */
  function TrimEnd(s: string): (r: string)
    ensures |r| <= |s| && r == s[..|r|]
    ensures forall k | |r| <= k < |s| :: IsWhiteSpace(s[k])
    ensures r == [] || !IsWhiteSpace(r[|r| - 1])
  {
    if s != [] && IsWhiteSpace(s[|s| - 1]) then TrimEnd(s[..|s| - 1]) else s
  }
}

=== FILE: user_model.dfy ===
/** The user schema: its validators, the password-hashing save hook, the reset-token
    issuer and the two instance methods that sign a session token and compare a
    password. bcrypt, SHA-256, the random source and the JWT signer are parameters. */
module UserModel {
  import opened Wrappers
  import opened Email
  import opened Hex
  import opened Fields

  const Roles: set<string> := {"user", "publisher"}
  const DefaultRole: string := "user"
  const MinPasswordLength: nat := 6
  const ResetTokenBytes: nat := 20
  /** Ten minutes, in the milliseconds `Date.now()` counts in. */
  const ResetTokenLifetime: int := 10 * 60 * 1000

  /** A stored user. `password` holds whatever the save hook last wrote there. */
  datatype User = User(
    id: Id,
    name: string,
    email: string,
    role: string,
    password: string,
    resetPasswordToken: Option<string>,
    resetPasswordExpire: Option<int>,
    createAt: int)

  /** The fields a client supplies when a user is created; `None` is an absent field. */
  datatype UserInput = UserInput(
    name: Option<string>,
    email: Option<string>,
    password: Option<string>,
    role: Option<string>)

  /** One failing schema validator. */
  datatype Violation =
    | NameRequired
    | EmailRequired
    | EmailInvalid
    | RoleNotAllowed
    | PasswordRequired
    | PasswordTooShort

  /** The failing validators of `input`, at most one per field: mongoose validates
      every field, runs a field's `required` check first and keeps only the first
      error of each field. So an empty password is reported as missing, not as short.
      The `match` validator skips the empty string; the role enum admits an absent
      role (the default fills it). */
  function Violations(input: UserInput): (vs: set<Violation>)
    ensures NameRequired in vs <==> !Present(input.name)
    ensures EmailRequired in vs <==> !Present(input.email)
    ensures EmailInvalid in vs <==> Present(input.email) && !MatchesPattern(input.email.value)
    ensures RoleNotAllowed in vs <==> input.role.Some? && input.role.value !in Roles
    ensures PasswordRequired in vs <==> !Present(input.password)
    ensures PasswordTooShort in vs <==> Present(input.password) && |input.password.value| < MinPasswordLength
  {
    (if !Present(input.name) then {NameRequired} else {})
    + (if !Present(input.email) then {EmailRequired} else {})
    + (if Present(input.email) && !MatchesPattern(input.email.value) then {EmailInvalid} else {})
    + (if input.role.Some? && input.role.value !in Roles then {RoleNotAllowed} else {})
    + (if !Present(input.password) then {PasswordRequired} else {})
    + (if Present(input.password) && |input.password.value| < MinPasswordLength then {PasswordTooShort} else {})
  }

  /** The save hook as written: the early `next()` is not followed by `return`, so
      the password is hashed again on every save, modified or not. */
  function PreSaveAsWritten(u: User, passwordModified: bool, hash: (string, string) -> string, salt: string): (r: User)
    ensures r.password == hash(u.password, salt)
    ensures r.(password := u.password) == u
  {
    u.(password := hash(u.password, salt))
  }

  /** The save hook as its comment says it should behave: hash only a modified password. */
  function PreSave(u: User, passwordModified: bool, hash: (string, string) -> string, salt: string): (r: User)
    ensures passwordModified ==> r.password == hash(u.password, salt)
    ensures !passwordModified ==> r == u
    ensures r.(password := u.password) == u
  {
    if passwordModified then u.(password := hash(u.password, salt)) else u
  }

  /** On the create path the password is always new, and the two hooks agree. */
  lemma HooksAgreeOnCreate(u: User, hash: (string, string) -> string, salt: string)
    ensures PreSave(u, true, hash, salt) == PreSaveAsWritten(u, true, hash, salt)
  {
  }

  /** `User.findOne({email})` over the stored users: the first with that exact address. */
  function FindByEmail(users: seq<User>, email: string): (r: Option<User>)
    ensures r.None? <==> forall i | 0 <= i < |users| :: users[i].email != email
    ensures r.Some? ==> r.value in users && r.value.email == email
  {
    if users == [] then None
    else if users[0].email == email then Some(users[0])
    else FindByEmail(users[1..], email)
  }

  /** `User.findById(id)`: the stored user with that id, or `null`. */
  function FindById(users: seq<User>, id: Id): (r: Option<User>)
    ensures r.None? <==> forall i | 0 <= i < |users| :: users[i].id != id
    ensures r.Some? ==> r.value in users && r.value.id == id
  {
    if users == [] then None
    else if users[0].id == id then Some(users[0])
    else FindById(users[1..], id)
  }

  /** `user.matchPassword(entered)`: bcrypt's compare against the stored hash. */
  function MatchPassword(u: User, entered: string, compare: (string, string) -> bool): bool
  {
    compare(entered, u.password)
  }

  /** The comparison sees the stored hash and nothing else of the record: two users
      holding the same hash answer alike for every entered password. */
  lemma MatchUsesStoredHash(u: User, w: User, entered: string, compare: (string, string) -> bool)
    requires u.password == w.password
    ensures MatchPassword(u, entered, compare) == MatchPassword(w, entered, compare)
    ensures MatchPassword(u, entered, compare) == compare(entered, w.password)
  {
  }

  /** The `iat` claim `jwt.sign` stamps into a token issued at `now` (milliseconds):
      `Math.floor(now / 1000)`, the whole second. */
  function IssuedAt(now: int): (iat: int)
    ensures iat * 1000 <= now < (iat + 1) * 1000
  {
    now / 1000
  }

  /** `user.getSignedJwtToken()` at the instant `now`. `sign(id, iat)` stands for
      `jwt.sign({ id }, secret, { expiresIn })`: the signed claims are the id, the
      issue second and an expiry that follows from it. */
  function SignedToken(u: User, now: int, sign: (Id, int) -> string): string
  {
    sign(u.id, IssuedAt(now))
  }

  /** The claims are the id and the issue second: two users with the same id get the
      same token when it is issued within the same second, whatever their other fields hold. */
  lemma TokenDependsOnlyOnId(u: User, v: User, now1: int, now2: int, sign: (Id, int) -> string)
    requires u.id == v.id
    requires IssuedAt(now1) == IssuedAt(now2)
    ensures SignedToken(u, now1, sign) == SignedToken(v, now2, sign)
  {
  }

  /** `User.create(input)`: validation first, then the save hook on a new password.
      A created user has an allowed role (`user` when none was given), a non-empty
      name and a valid address, and stores the hash of a password of at least six characters. */
  function Create(input: UserInput, id: Id, now: int, hash: (string, string) -> string, salt: string)
    : (r: Result<User, set<Violation>>)
    ensures r.Failure? <==> Violations(input) != {}
    ensures r.Failure? ==> r.error == Violations(input)
    ensures r.Success? ==>
      && r.value.id == id
      && r.value.role in Roles
      && (input.role.None? ==> r.value.role == DefaultRole)
      && (input.role.Some? ==> r.value.role == input.role.value)
      && Some(r.value.name) == input.name && r.value.name != []
      && Some(r.value.email) == input.email && MatchesPattern(r.value.email)
      && input.password.Some? && |input.password.value| >= MinPasswordLength
      && r.value.password == hash(input.password.value, salt)
      && r.value.resetPasswordToken.None? && r.value.resetPasswordExpire.None?
      && r.value.createAt == now
  {
    if Violations(input) != {} then Failure(Violations(input))
    else
      var created := User(id, input.name.value, input.email.value, input.role.GetOr(DefaultRole),
                        input.password.value, None, None, now);
      Success(PreSave(created, true, hash, salt))
  }

  /** No stored user is an admin: the schema's role enum leaves `admin` out. */
  lemma NoAdminIsCreated(input: UserInput, id: Id, now: int, hash: (string, string) -> string, salt: string)
    requires Create(input, id, now, hash, salt).Success?
    ensures Create(input, id, now, hash, salt).value.role != "admin"
  {
  }

  /** A created user can log in with the password it was created with, whenever
      compare accepts what hash produced. */
  lemma CreatedUserMatches(input: UserInput, id: Id, now: int, hash: (string, string) -> string,
                           salt: string, compare: (string, string) -> bool)
    requires forall p, s :: compare(p, hash(p, s))
    requires Create(input, id, now, hash, salt).Success?
    ensures MatchPassword(Create(input, id, now, hash, salt).value, input.password.value, compare)
  {
  }

  /** A user as a read returns it: every stored field, except that the password is
      left out (`select: false`) unless the read asks for `+password`. */
  datatype UserView = UserView(
    id: Id,
    name: string,
    email: string,
    role: string,
    password: Option<string>,
    resetPasswordToken: Option<string>,
    resetPasswordExpire: Option<int>,
    createAt: int)

  function Read(u: User, withPassword: bool): (v: UserView)
    ensures v.id == u.id && v.name == u.name && v.email == u.email && v.role == u.role
    ensures v.resetPasswordToken == u.resetPasswordToken && v.resetPasswordExpire == u.resetPasswordExpire
    ensures v.createAt == u.createAt
    ensures !withPassword ==> v.password.None?
    ensures withPassword ==> v.password == Some(u.password)
  {
    UserView(u.id, u.name, u.email, u.role, if withPassword then Some(u.password) else None,
             u.resetPasswordToken, u.resetPasswordExpire, u.createAt)
  }

  /** The stored record a `+password` read came from. */
  function Stored(v: UserView): User
    requires v.password.Some?
  {
    User(v.id, v.name, v.email, v.role, v.password.value, v.resetPasswordToken, v.resetPasswordExpire, v.createAt)
  }

  /** A `+password` read loses nothing; a default read loses the password and only it:
      two users that differ only in their password read the same by default. */
  lemma ReadLosesOnlyPassword(u: User, w: User)
    ensures Stored(Read(u, true)) == u
    ensures Read(u, false) == Read(w, false) <==> u.(password := w.password) == w
  {
  }

  /** `user.getResetPasswordToken()`: the plaintext token is the hex spelling of 20
      random bytes; the record keeps only its SHA-256 digest and an expiry ten
      minutes from now, and no other field changes. */
  function ResetToken(u: User, entropy: seq<Byte>, sha256: string -> string, now: int): (r: (string, User))
    requires |entropy| == ResetTokenBytes
    ensures |r.0| == 40
    ensures forall i | 0 <= i < |r.0| :: IsLowerHexDigit(r.0[i])
    ensures r.1.resetPasswordToken == Some(sha256(r.0))
    ensures r.1.resetPasswordExpire == Some(now + 600000)
    ensures r.1.(resetPasswordToken := u.resetPasswordToken, resetPasswordExpire := u.resetPasswordExpire) == u
  {
    var token := ToHex(entropy);
    (token, u.(resetPasswordToken := Some(sha256(token)), resetPasswordExpire := Some(now + ResetTokenLifetime)))
  }

  /** The plaintext token carries exactly the random bytes it was made from. */
  lemma ResetTokenEncodesEntropy(u: User, entropy: seq<Byte>, sha256: string -> string, now: int)
    requires |entropy| == ResetTokenBytes
    ensures FromHex(ResetToken(u, entropy, sha256, now).0) == entropy
  {
    HexRoundTrip(entropy);
  }

  // ---- The double hash of the save hook, exhibited with a stand-in for bcrypt

  /** A stand-in hash with bcrypt's one promise: compare accepts what hash produced. */
  function ToyHash(p: string, salt: string): string { "h(" + p + ")" }

  function ToyCompare(p: string, h: string): bool { h == "h(" + p + ")" }

  lemma ToyCompareAcceptsHash(p: string, salt: string)
    ensures ToyCompare(p, ToyHash(p, salt))
  {
  }

  /** A document that still carries its hash (such as the one `User.create` returned),
      saved once more without touching the password, no longer matches its own
      password under the hook as written, while the corrected hook keeps the match. */
  lemma ResaveLocksUserOut(u: User, plaintext: string, salt: string)
    requires u.password == ToyHash(plaintext, salt)
    ensures MatchPassword(u, plaintext, ToyCompare)
    ensures !MatchPassword(PreSaveAsWritten(u, false, ToyHash, salt), plaintext, ToyCompare)
    ensures MatchPassword(PreSave(u, false, ToyHash, salt), plaintext, ToyCompare)
  {
    ToyCompareAcceptsHash(plaintext, salt);
    var twice := ToyHash(ToyHash(plaintext, salt), salt);
    assert |twice| == |plaintext| + 6;
  }
}

=== FILE: wrappers.dfy ===
/** Failure-carrying datatypes shared by every module of the model. */
module Wrappers {

  /** A value that may be absent: JavaScript's `undefined` (or a falsy lookup) is `None`. */
  datatype Option<+T> = None | Some(value: T) {

    /** The value, or `default` when absent. */
    function GetOr(default: T): T {
      match this
      case Some(v) => v
      case None => default
    }
  }

  /** Either a computed value or the error the source would raise or pass to `next(err)`. */
  datatype Result<+R, +E> = Success(value: R) | Failure(error: E) {

    predicate IsFailure() {
      Failure?
    }

    function PropagateFailure<U>(): Result<U, E>
      requires Failure?
    {
      Failure(error)
    }

    function Extract(): R
      requires Success?
    {
      value
    }
  }
}
